=== FILE: README.md ===
# Window switcher: a Dafny model of its decision logic

This project models the pure decision logic of a desktop window switcher that
lists the running applications and their windows, lets the user switch to,
close, minimize, hide or quit them, and keeps a user-managed list of
excluded applications. The logic is modelled as immutable datatypes and pure
functions, with contracts and lemmas stating what each part promises.

- **Preferences**: normalising the stored order, icon size and view-mode
  preferences, and mapping the icon size to a grid item size and column count.
- **Reconcile**: choosing the fresh or cached snapshot, and overlaying the slow
  query's per-application minimized flags on the fast query's snapshot. The join
  is by window position `index`.
- **Ordering**: the two application orders, alphabetical and most-recent
  (frontmost first), and a stable insertion sort that applies them.
- **Arrange**: filtering out excluded applications, sorting, emitting one display
  item per window (or one per windowless application), and splitting the items
  into the active, minimized and no-window sections. It is given both as a
  function and as the loop the view runs.
- **ItemIds** and **Decimal**: the display items' string keys, and the decimal
  rendering of window indices inside them.
- **RunningApps**: the output shape of the fast query, the parse-or-empty
  fallbacks of both queries, and the running-apps cache. The cache is an
  in-memory copy in front of a stored payload, which is either a legacy bare
  array or a `{timestamp, apps}` wrapper.
- **Storage**: the local key-value store, seen through what `JSON.parse` makes
  of the stored text.
- **ExcludedApps**: the read-modify-write exclusion store.
- **Escape**: the AppleScript string escaper, with a reader for AppleScript
  string literals that shows the escaping cannot be broken out of.
- **AppActions**: which actions are offered on an item, the script each one
  sends, the conversion to 1-based window numbers, and the effects after the
  script succeeds or fails. For "Exclude App" it also models what the open
  switcher does with the refresh that follows (see Findings).
- **Seqs**: occurrence counting, shared by the escaper's length law and the
  action effects.
- **ManageExcluded**: the excluded-apps view, which joins each excluded id with
  the installed application carrying it.

The cache entry carries a timestamp that nothing reads, so the cache never
expires. `WrapperReadIgnoresTimestamp` states this.

## Model

| member | source | states |
|---|---|---|
| Preferences.NormalizeOrder | src/index.tsx:14-18 | the order is alphabetical exactly when the stored value is "alphabetical"; a missing value gives most-recent |
| Preferences.NormalizeIconSize | src/index.tsx:20-26 | "small", "medium" and "large" are kept as they are; anything else, including a missing value, becomes medium |
| Preferences.NormalizeViewMode | src/index.tsx:28-32 | the view is a list exactly when the stored value is "list", else a grid |
| Preferences.ToGridItemSize | src/index.tsx:34-38 | the grid item size has the same rank (small < medium < large) as the icon size |
| Preferences.ToGridColumns | src/index.tsx:40-44 | the column count is one of 5, 7 and 12, and it is 7 exactly for the medium size |
| Preferences.NormalizeRoundTrip | src/index.tsx:14-32 | each preference's own spelling normalises back to that preference |
| Preferences.LayoutMonotone | src/index.tsx:34-44 | a larger icon size gives a strictly larger item size and strictly fewer columns |
| Reconcile.Visible | src/index.tsx:89 | the fresh snapshot wins whenever there is one; otherwise the cached copy is used; the result is absent only when both are |
| Reconcile.MergeApp | src/index.tsx:101-110 | only minimized flags change; an unmapped app is returned as it is; a mapped app's window is minimized iff its index is within the status list and the flag there is true |
| Reconcile.Merge | src/index.tsx:98-112 | an absent snapshot stays absent; without a map the snapshot is returned unchanged; otherwise the app and window counts and order are kept, nothing but minimized flags changes, unmapped apps are untouched, and mapped windows take the flag at their index (false out of range) |
| Reconcile.MergeIdempotent | src/index.tsx:98-112 | merging again with the same map changes nothing |
| Reconcile.MergePositional | src/index.tsx:106-109 | for a window whose index is its position `j`, the merged flag is the map's `j`-th entry, or false past the list's end |
| Ordering.NameLeTotal | src/index.tsx:126 | any two names are comparable under the name order |
| Ordering.NameLeTransitive | src/index.tsx:126 | the name order is transitive |
| Ordering.NameLeAntisymmetric | src/index.tsx:126 | names that each sort no later than the other are equal |
| Ordering.NameLe | src/index.tsx:126 | a prefix of a name (the name itself included) sorts no later than it; when the first characters differ the smaller one sorts first; only the empty name sorts no later than the empty name |
| Ordering.NameLeFirstDifference | src/index.tsx:126 | after any common prefix, the first differing character decides the order |
| Ordering.Precedes | src/index.tsx:125-131 | alphabetical order compares names; most-recent order puts a frontmost app before a non-frontmost one and otherwise compares names |
| Ordering.PrecedesTotal | src/index.tsx:125-131 | both comparators (by name; frontmost first, then by name) relate every pair one way or the other |
| Ordering.PrecedesTransitive | src/index.tsx:125-131 | both comparators are transitive |
| Ordering.Insert | src/index.tsx:125-132 | insertion adds exactly the one element (multiset) |
| Ordering.InsertSorted | src/index.tsx:125-132 | inserting into a sorted list keeps it sorted |
| Ordering.SortApps | src/index.tsx:125-132 | the result is a permutation of the input and is sorted by the chosen comparator |
| Ordering.MostRecentGroups | src/index.tsx:128-131 | in most-recent order every frontmost app comes before every other app, and within each group names are non-decreasing |
| Ordering.FrontmostFirst | src/index.tsx:128-131 | in most-recent order, if any app is frontmost then the first app is |
| Decimal.NatToString | src/index.tsx:157 | the rendering of a natural number is non-empty, all digits, with no leading zero |
| Decimal.IntToString | src/index.tsx:157 | the rendering ends in a digit, has only digits apart from a leading minus, and starts with a minus exactly for negative numbers |
| Decimal.NatRoundTrip | src/index.tsx:157 | parsing the digits of `n` gives `n` |
| Decimal.IntRoundTrip | src/index.tsx:157 | parsing the rendering of any integer gives it back |
| Decimal.IntToStringInjective | src/index.tsx:157 | distinct window indices render as distinct text |
| ItemIds.LastChar | src/index.tsx:141-157 | a no-window key's text ends in 'w'; a window key's text ends in a digit |
| ItemIds.WindowKeyInjective | src/index.tsx:157 | equal window-key texts come from equal bundle ids and equal indices |
| ItemIds.IdTextInjective | src/index.tsx:141-157 | distinct keys render as distinct ids, whatever the bundle ids contain |
| Arrange.NoWindowItem | src/index.tsx:139-150 | the item of a windowless app has the "-no-window" key and the app's bundle id, name and path, no windows, index -1, no title, not minimized, and the app's frontmost flag |
| Arrange.WindowItem | src/index.tsx:153-166 | the item of a window has the "-w" key of the window's index, the app's bundle id, name and path, the window's index and minimized flag; it has a title exactly in a multi-window app, the window title or the app name when that is empty; it is frontmost iff the app is and the window is not minimized |
| Arrange.WindowItems | src/index.tsx:155-166 | one item per window, in window order, each built from its window |
| Arrange.AppItems | src/index.tsx:139-166 | an app yields one item per window, or exactly one item when it has none; every item carries the app's bundle id and has windows exactly when the app does |
| Arrange.PerApp | src/index.tsx:138-174 | one group of items per application, in application order |
| Arrange.AppItemsFields | src/index.tsx:139-166 | a windowless app yields exactly one item with the "-no-window" id, index -1, not minimized, no windows and the app's frontmost flag, in the no-window section; otherwise window `j` yields the `j`-th item, with the "-w" id, the window's index and minimized flag, a title only for multi-window apps (the window title, or the app name when it is empty), frontmost iff the app is and the window is not minimized, and placed in the minimized or the active section by its flag |
| Arrange.FlatLength | src/index.tsx:138-174 | the number of items is the number of windows plus the number of windowless apps |
| Arrange.FlatBundleIds | src/index.tsx:143-159 | every item carries the bundle id of one of the applications |
| Arrange.FlatPermutation | src/index.tsx:125-138 | reordering the applications only reorders their items |
| Arrange.BucketOf | src/index.tsx:139-172 | an item goes to the no-window section iff it has no windows, to the minimized section iff it has windows and is minimized, and to the active section otherwise |
| Arrange.Select | src/index.tsx:168-172 | a section is no longer than the item list it is drawn from |
| Arrange.SelectMembers | src/index.tsx:168-172 | an item is in a section exactly when it is an item and its flags pick that section |
| Arrange.Keep | src/index.tsx:122-123 | an app is kept exactly when it is in the list and its bundle id is not excluded |
| Arrange.KeepCounts | src/index.tsx:123 | each non-excluded app is kept as often as it occurs in the input, and an excluded one never |
| Arrange.KeepAppend | src/index.tsx:123 | the filter distributes over concatenation, so the kept apps stay in input order |
| Arrange.Sections | src/index.tsx:114-120 | with no application list or no exclusion list, all three sections are empty |
| Arrange.SelectPartition | src/index.tsx:139-173 | the three sections together hold each item exactly once |
| Arrange.ArrangePartition | src/index.tsx:114-181 | the sections' union is exactly the items of the non-excluded apps, each once (as multisets) |
| Arrange.ArrangeSizes | src/index.tsx:138-174 | the section sizes add up to the number of windows plus the number of windowless apps among the non-excluded apps |
| Arrange.ArrangeHidesExcluded | src/index.tsx:122-123 | no item in any section carries an excluded bundle id |
| Arrange.FlatShowsApp | src/index.tsx:138-174 | every app contributes at least one item, whose bundle id is the app's |
| Arrange.ArrangeShowsKept | src/index.tsx:114-174 | every app in the list whose bundle id is not excluded has an item in some section |
| Arrange.ArrangeWellPlaced | src/index.tsx:139-173 | active items have windows and are not minimized, minimized items have windows and are minimized, and no-window items have no windows |
| Arrange.SectionsFollowOrder | src/index.tsx:114-174 | the sections are the items of some arrangement of the kept apps that is sorted by the chosen order (by name; or frontmost first, then by name), split by section |
| Arrange.PushAppItems | src/index.tsx:138-173 | one pass of the outer loop appends the application's items to the end of their sections |
| Arrange.PushWindowItems | src/index.tsx:153-173 | the inner loop sends each window's item to the minimized or the active section by its flag |
| Arrange.ArrangeItems | src/index.tsx:114-181 | the loop the view runs produces exactly the sections of the functional definition |
| Arrange.MostRecentScenario | src/index.tsx:128-131 | a frontmost "Ant" goes before a non-frontmost "Zed" in most-recent order |
| RunningApps.QueryWindows | src/get-running-apps.ts:27-42 | one window per reported window: index equal to its position, not minimized, title the reported name or "", and the reported window number |
| RunningApps.QueryApp | src/get-running-apps.ts:18-49 | a reported app carries the process's non-empty bundle id, name and frontmost flag, its path or "" when unresolved, and one positionally indexed, unminimized window per reported window |
| RunningApps.FastQuery | src/get-running-apps.ts:17-50 | the result has the fast query's shape (non-empty bundle ids, positional indices, nothing minimized) and is no longer than the process list |
| RunningApps.FastQueryMembers | src/get-running-apps.ts:18-19 | every process with a non-empty bundle id is reported, and nothing else is |
| RunningApps.RunningAppsFrom | src/get-running-apps.ts:95-102 | output that does not parse gives no apps; parsed output is returned as it is |
| RunningApps.MinimizedStatusFrom | src/get-running-apps.ts:139-148 | output that does not parse gives an empty map; parsed output is returned as it is |
| RunningApps.FastQueryPipeline | src/get-running-apps.ts:95-102 | whether or not the text parses back, the apps obtained have the fast query's shape |
| RunningApps.FastQueryMerge | src/index.tsx:101-109 | after the merge, window `j` of a fast-query app is minimized iff the map lists a true flag at position `j` for its bundle id |
| RunningApps.IsCacheEntry | src/get-running-apps.ts:84-92 | a value is a cache entry exactly when it is an object with a numeric `timestamp` and an `apps` array, other fields allowed; so an entry is never mistaken for the legacy bare array |
| RunningApps.PayloadApps | src/get-running-apps.ts:84-122 | a payload yields apps exactly when it is a bare array or a cache entry; a bare array yields its elements, and a cache entry, extra fields or not, yields its `apps` array |
| RunningApps.GetCached | src/get-running-apps.ts:104-128 | the in-memory copy is returned without reading the store; the store is never changed; missing, blank or unparseable text gives nothing and changes nothing; parsed text gives exactly the apps its payload holds; a read giving nothing changes nothing; a read giving apps makes them the in-memory copy |
| RunningApps.Entry | src/get-running-apps.ts:132-135 | the written payload is a cache entry whose `apps` are the given apps and whose `timestamp` is the given time |
| RunningApps.SetCached | src/get-running-apps.ts:130-137 | the apps become the in-memory copy; the store holds a `{timestamp: now, apps}` wrapper, which reads back as the apps; the exclusion key is untouched |
| RunningApps.LegacyArrayRead | src/get-running-apps.ts:113-117 | a stored bare array is returned and becomes the in-memory copy |
| RunningApps.WrapperReadIgnoresTimestamp | src/get-running-apps.ts:119-122 | a stored wrapper yields its apps whatever its timestamp |
| RunningApps.UnrecognisedPayloadRead | src/get-running-apps.ts:124 | any other payload reads as nothing and leaves the state unchanged |
| RunningApps.UntimedObjectRead | src/get-running-apps.ts:84-124 | a stored object without a numeric timestamp reads as nothing, whatever apps it holds, and leaves the state unchanged |
| RunningApps.ExtraFieldsRead | src/get-running-apps.ts:84-122 | a stored object with a numeric timestamp and an apps array is read as those apps, whatever other fields it has, and they become the in-memory copy |
| RunningApps.CacheRoundTrip | src/get-running-apps.ts:104-137 | after storing apps, a read returns them, both from memory and from the store alone |
| RunningApps.GetCachedStable | src/get-running-apps.ts:105 | a second read returns what the first did and changes nothing |
| ExcludedApps.GetExcluded | src/excluded-apps.ts:5-13 | missing, blank or unparseable text reads as the empty list; parsed text reads as the stored list |
| ExcludedApps.Without | src/excluded-apps.ts:25 | every occurrence of the id is dropped, and every other id keeps its number of occurrences |
| ExcludedApps.AddExcluded | src/excluded-apps.ts:15-21 | an id already listed causes no write; a new id is appended at the end after the unchanged list; either way the id is listed afterwards and the cache key is untouched |
| ExcludedApps.RemoveExcluded | src/excluded-apps.ts:23-27 | the list is always written back; afterwards it is the old list with every occurrence of the id filtered out, so the id is absent and every other id keeps its place and count |
| ExcludedApps.AddIdempotent | src/excluded-apps.ts:15-21 | adding twice is adding once |
| ExcludedApps.AddKeepsNoDuplicates | src/excluded-apps.ts:17-19 | adding keeps a duplicate-free list duplicate-free |
| ExcludedApps.WithoutAppend | src/excluded-apps.ts:25 | removal distributes over concatenation, so the remaining ids keep their relative order |
| ExcludedApps.WithoutAbsent | src/excluded-apps.ts:25 | filtering out an id that is not listed leaves the list as it is |
| ExcludedApps.RemoveAbsent | src/excluded-apps.ts:23-27 | removing an unlisted id leaves the list's value unchanged, though it is rewritten |
| ExcludedApps.AddThenRemove | src/excluded-apps.ts:15-27 | removing a just-added id restores the previous list |
| Escape.ReplaceAll | src/app-actions.tsx:7 | a text without the character is left as it is; a one-character text becomes the replacement when it is the character and stays otherwise; with ReplaceAllAppend this fixes every output |
| Escape.ReplaceAllAppend | src/app-actions.tsx:7 | replacing in a concatenation is concatenating the replacements |
| Escape.EscapeAS | src/app-actions.tsx:6-8 | escaping equals escaping each character on its own: a backslash becomes two, a double quote gets a backslash before it, anything else stays |
| Escape.EscapeIsSinglePass | src/app-actions.tsx:6-8 | the two global replacements, backslashes first, equal a single per-character pass, so an added backslash is never escaped again |
| Escape.UnescapeEscape | src/app-actions.tsx:6-8 | unescaping the escaped text gives back the input |
| Escape.LiteralReadsBack | src/app-actions.tsx:6-8 | placed between double quotes, the escaped name reads back as exactly the name, and the literal ends at the quote that follows it |
| Escape.EscapeLength | src/app-actions.tsx:7 | the output length is the input length plus the number of backslashes plus the number of double quotes |
| Escape.EscapeIdentity | src/app-actions.tsx:7 | a text with neither character is unchanged |
| Escape.EscapedQuotesOdd | src/app-actions.tsx:7 | every double quote in the output follows an odd run of backslashes, and the output ends after an even run |
| AppActions.AppleScriptIndex | src/app-actions.tsx:12-13 | the 1-based window number is at least 1 exactly when the 0-based index is non-negative, and is one more than it |
| AppActions.SwitchScript | src/app-actions.tsx:10-44 | the window-raising script is used iff the item has windows and a non-negative index; the activate-and-reopen script is used otherwise |
| AppActions.CommandScript | src/app-actions.tsx:10-89 | each command sends its own kind of script (switch: raise-window or activate-reopen; close: press close; minimize: set minimized; hide; quit); switching uses the switch script; close and minimize address window index + 1; every script names the app through the escaped name |
| AppActions.OfferedActions | src/app-actions.tsx:120-177 | Switch (first), Hide, Quit and Exclude are always offered; Close only for an item that targets a window; Restore only for such an item that is minimized, and Minimize only for such an item that is not |
| AppActions.BindingOf | src/app-actions.tsx:122-163 | every action but Exclude goes through the action handler; Switch and Restore run the switch command and close the window, Close runs close, Minimize minimize, Hide hide and Quit quit, none of them closing; each passes its own success message ("Switched", "Window closed", "Window restored", "Window minimized", "App hidden", "App quit") |
| AppActions.HandleAction | src/app-actions.tsx:97-118 | the action's script runs first, and something follows it |
| AppActions.HandleActionOutcome | src/app-actions.tsx:97-118 | the action's script runs exactly once and no other script runs; success with closing closes the window and pops to the root, without refreshing; success without closing shows the success toast and refreshes once; success never shows a failure toast; failure shows only "Action failed" with the error |
| AppActions.OfferedScriptsWellFormed | src/app-actions.tsx:10-89 | every offered action's script addresses the item's window as index + 1 ≥ 1 and names the application through the escaped name |
| AppActions.Exclude | src/app-actions.tsx:164-176 | the store becomes what adding the id to the exclusion list gives (earlier ids kept, the id appended when new), followed by the "<name> excluded" toast and one refresh |
| AppActions.Launch | src/index.tsx:95-96 | opening the command loads the exclusion list as the store holds it |
| AppActions.ExcludeInView | src/app-actions.tsx:168-174 | in the open view the id is stored and the running-apps list is refreshed, but the exclusion list stays as loaded at opening |
| AppActions.ExcludeLeavesAppShown | src/index.tsx:58-96 | in the open view, an excluded application that the list loaded at opening did not name still has an item in the refreshed sections |
| AppActions.ExcludeAndReload | src/app-actions.tsx:168-174 | the corrected action also re-reads the exclusion list, so the view is what a launch over the updated store sees |
| AppActions.ExcludeReloadHidesApp | src/app-actions.tsx:168-174 | with the corrected action, no section of the open view shows an item of the excluded application |
| AppActions.ExcludeHidesApp | src/app-actions.tsx:168-174 | on the next launch, which reads the exclusion list again, no section shows an item of the excluded application |
| ManageExcluded.AppMap | src/manage-excluded.tsx:12 | every id in the lookup is non-empty and maps to an app carrying that bundle id |
| ManageExcluded.AppMapLookup | src/manage-excluded.tsx:12 | an id is in the lookup exactly when some installed app with a non-empty bundle id has it, and it maps to the last such app |
| ManageExcluded.Entries | src/manage-excluded.tsx:10-17 | with either list absent there are no rows; otherwise one row per excluded id, in order, carrying the looked-up app when there is one |
| ManageExcluded.Title | src/manage-excluded.tsx:32 | the title is the app's name when the app is present and its name is non-empty, else the bundle id |
| ManageExcluded.ShowsEmptyView | src/manage-excluded.tsx:21 | the empty view shows only when there are no rows and the list is not loading, and a loaded list without it has rows |
| ManageExcluded.EmptyViewWhen | src/manage-excluded.tsx:11-21 | the empty view shows exactly when the exclusion list is not loading and either list is absent or nothing is excluded |
| ManageExcluded.RowTitles | src/manage-excluded.tsx:28-33 | each row's title is its installed app's non-empty name, else its bundle id |
| ManageExcluded.Restore | src/manage-excluded.tsx:39-46 | the id is filtered out of the stored list, then the "App restored" toast and one refresh of the view follow |
| ManageExcluded.RestoreRemovesRow | src/manage-excluded.tsx:36-46 | the refresh re-reads the exclusion list, so no row names the restored id and every other excluded id stays |

## Left out

- React rendering and hooks (`useMemo`, `useEffect`, `usePromise`, JSX, the List and Grid markup of src/index.tsx:183-307) are presentation. The memo bodies are modelled as pure functions, and the loading flags only where they decide the empty view.
- The automation scripts (the JXA bodies and `runAppleScript`) run in the operating system. The fast query's result is modelled from the process facts it reads, and its output is a parameter of the parse-or-empty fallback. The minimized-status script is represented only by its result map.
- `JSON.parse` and `JSON.stringify` are treated as opaque. Stored text is known by what it parses to, and `Stringify` produces text that parses back to its argument.
- A fast-query or exclusion-list text that parses to something other than an array is not modelled: the source passes it on unchecked.
- A parsed minimized map whose values are not flag lists is not modelled either.
- `localeCompare` is modelled as lexicographic order on character codes. Locale collation is not visible.
- The sort's stability is not stated. The property proved is that the result is a sorted permutation.
- `Date.now()` is a parameter of `SetCached`, because the clock is outside the model.
- Toasts, `closeMainWindow`, `popToRoot` and `revalidate` are recorded as effect tags. `getApplications` is a parameter of the excluded-apps view. Failures of these host calls are not modelled.
- Installed applications are joined by bundle id through a map. JavaScript object-key quirks are not modelled, such as a bundle id of `__proto__` in the minimized map.
- Numbers are integers. The only numbers involved are window indices, window numbers and a millisecond timestamp.
- The display item's `id` is a structured key, `ItemId`. `IdText` renders it as the source's string, and `IdTextInjective` shows that the rendering loses nothing.
- Concurrency and async timing are not modelled. The code recomputes from the latest inputs, so `Merge` and `Arrange` are functions of those inputs.
- A rejected automation script is not modelled. The scripts are awaited outside the `try` blocks of src/get-running-apps.ts:96 and :140, so a script failure makes `getRunningApps` or `getMinimizedStatus` reject rather than fall back to `[]` or `{}`. In the model such a rejection is the absent (`None`) input of `Reconcile.Visible` and `Reconcile.Merge`.
- Arrange.Select: its own contract states only the length bound. Which items a section holds is stated by `Arrange.SelectMembers`, kept apart because the quantified form on the recursive function made the section proofs much more expensive.
- `windowNumber` is carried but never used to join: neither the merge nor the item construction does so.

## Findings

| source | as written | input that shows it | evidently intended | confidence | as-written member | corrected member |
|---|---|---|---|---|---|---|
| src/app-actions.tsx:168-174 | "Exclude App" stores the id and calls `revalidate`, which belongs to the running-apps query (src/index.tsx:58-62). The exclusion list loaded at src/index.tsx:95-96 is never read again, so the open switcher keeps showing the app it just reported as excluded until the command is reopened | an open view whose loaded exclusion list is `[]`, and a running app with bundle id `b` whose item is excluded | the view re-reads the exclusion list, so the app disappears at once | medium; not executed | AppActions.ExcludeLeavesAppShown | AppActions.ExcludeReloadHidesApp |

=== FILE: app_actions.dfy ===
/**
 * The actions offered on a display item, the automation script each one
 * runs, and what happens after the script succeeds or fails. Scripts are
 * recorded as values; running them belongs to the operating system.
 */
module AppActions {
  import opened Wrappers
  import opened Seqs
  import opened Types
  import opened Storage
  import opened Escape
  import opened ExcludedApps
  import Preferences
  import Arrange

  /** The automation scripts the actions send, with the escaped name spliced in. */
  datatype Script =
    | RaiseWindow(process: string, window: int)   // un-minimize and raise window `window` (1-based), then activate
    | ActivateReopen(app: string)                 // activate, reopen, and open a new window if there is none
    | PressClose(process: string, window: int)    // press the close button of window `window`, or Command-W
    | SetMinimized(process: string, window: int)  // set AXMinimized of window `window`
    | HideProcess(process: string)
    | QuitApp(app: string)

  /** The five operations behind the actions. */
  datatype Command = SwitchTo | Close | Minimize | Hide | Quit

  /** The entries of the action panel. */
  datatype ActionKind = SwitchAction | CloseAction | RestoreAction | MinimizeAction | HideAction | QuitAction | ExcludeAction

  /** What the host does in response to an action. */
  datatype Effect =
    | RunScript(script: Script)
    | CloseMainWindow
    | PopToRoot
    | SuccessToast(title: string)
    | FailureToast(title: string, message: string)
    | Revalidate

  /** Whether the script ran without raising, and the error text when it did not. */
  datatype Outcome = Succeeded | Failed(error: string)

  /** AppleScript numbers windows from 1; the item carries a 0-based index. */
  function AppleScriptIndex(windowIndex: int): (w: int)
    ensures w >= 1 <==> windowIndex >= 0
    ensures w - 1 == windowIndex
  {
    windowIndex + 1
  }

  /** The item stands for a particular window. */
  predicate TargetsWindow(item: GridItem)
  {
    item.hasWindows && item.windowIndex >= 0
  }

  /** `switchToWindow`: raise the item's own window, or bring the app forward as a whole. */
  function SwitchScript(item: GridItem): (s: Script)
    ensures s.RaiseWindow? <==> TargetsWindow(item)
    ensures s.ActivateReopen? <==> !TargetsWindow(item)
  {
    var name := EscapeAS(item.appName);
    if TargetsWindow(item) then RaiseWindow(name, AppleScriptIndex(item.windowIndex))
    else ActivateReopen(name)
  }

  /**
   * The script each command sends for an item: each command has its own kind
   * of script, the window commands address the item's window in 1-based
   * numbering, and every script names the application through the escaped name.
   */
  function CommandScript(c: Command, item: GridItem): (s: Script)
    ensures c == SwitchTo <==> s.RaiseWindow? || s.ActivateReopen?
    ensures c == Close <==> s.PressClose?
    ensures c == Minimize <==> s.SetMinimized?
    ensures c == Hide <==> s.HideProcess?
    ensures c == Quit <==> s.QuitApp?
    ensures c == SwitchTo ==> s == SwitchScript(item)
    ensures s.PressClose? || s.SetMinimized? ==> s.window == item.windowIndex + 1
    ensures s.RaiseWindow? || s.PressClose? || s.SetMinimized? || s.HideProcess? ==> s.process == EscapeAS(item.appName)
    ensures s.ActivateReopen? || s.QuitApp? ==> s.app == EscapeAS(item.appName)
  {
    var name := EscapeAS(item.appName);
    match c
    case SwitchTo => SwitchScript(item)
    case Close => PressClose(name, AppleScriptIndex(item.windowIndex))
    case Minimize => SetMinimized(name, AppleScriptIndex(item.windowIndex))
    case Hide => HideProcess(name)
    case Quit => QuitApp(name)
  }

  /** The action panel of an item, in display order. */
  function OfferedActions(item: GridItem): (r: seq<ActionKind>)
    ensures SwitchAction in r && HideAction in r && QuitAction in r && ExcludeAction in r
    ensures CloseAction in r <==> TargetsWindow(item)
    ensures RestoreAction in r <==> TargetsWindow(item) && item.minimized
    ensures MinimizeAction in r <==> TargetsWindow(item) && !item.minimized
    ensures r[0] == SwitchAction
  {
    [SwitchAction]
    + (if TargetsWindow(item) then [CloseAction] + (if item.minimized then [RestoreAction] else [MinimizeAction]) else [])
    + [HideAction, QuitAction, ExcludeAction]
  }

  /** The command, success message and close flag each `handleAction` call passes. */
  datatype Binding = Binding(command: Command, message: string, shouldClose: bool)

  /**
   * Which command, success message and close flag each action passes to the
   * handler; "Exclude App" does not go through the handler.
   */
  function BindingOf(a: ActionKind): (b: Option<Binding>)
    ensures b.None? <==> a == ExcludeAction
    ensures b.Some? ==> (b.value.shouldClose <==> a == SwitchAction || a == RestoreAction)
    ensures b.Some? ==> (b.value.command == SwitchTo <==> a == SwitchAction || a == RestoreAction)
    ensures b.Some? ==> (b.value.command == Close <==> a == CloseAction)
    ensures b.Some? ==> (b.value.command == Minimize <==> a == MinimizeAction)
    ensures b.Some? ==> (b.value.command == Hide <==> a == HideAction)
    ensures b.Some? ==> (b.value.command == Quit <==> a == QuitAction)
    ensures a == SwitchAction ==> b.value.message == "Switched"
    ensures a == CloseAction ==> b.value.message == "Window closed"
    ensures a == RestoreAction ==> b.value.message == "Window restored"
    ensures a == MinimizeAction ==> b.value.message == "Window minimized"
    ensures a == HideAction ==> b.value.message == "App hidden"
    ensures a == QuitAction ==> b.value.message == "App quit"
  {
    match a
    case SwitchAction => Some(Binding(SwitchTo, "Switched", true))
    case CloseAction => Some(Binding(Close, "Window closed", false))
    case RestoreAction => Some(Binding(SwitchTo, "Window restored", true))
    case MinimizeAction => Some(Binding(Minimize, "Window minimized", false))
    case HideAction => Some(Binding(Hide, "App hidden", false))
    case QuitAction => Some(Binding(Quit, "App quit", false))
    case ExcludeAction => None
  }

  /** `handleAction`: run the script once, then close or toast-and-refresh, or report the failure. */
  function HandleAction(item: GridItem, b: Binding, outcome: Outcome): (effects: seq<Effect>)
    ensures |effects| >= 2 && effects[0] == RunScript(CommandScript(b.command, item))
  {
    [RunScript(CommandScript(b.command, item))]
    + match outcome
      case Succeeded =>
        if b.shouldClose then [CloseMainWindow, PopToRoot]
        else [SuccessToast(b.message), Revalidate]
      case Failed(e) => [FailureToast("Action failed", e)]
  }

  /**
   * The script runs exactly once (there is no retry). On success the window is
   * closed when asked, otherwise a success toast is shown and the list is
   * refreshed once; on failure only a failure toast carrying the error is shown.
   */
  lemma {:induction false} HandleActionOutcome(item: GridItem, b: Binding, outcome: Outcome)
    ensures var effects := HandleAction(item, b, outcome);
      && Count(effects, RunScript(CommandScript(b.command, item))) == 1
      && Count(effects, Revalidate) == (if outcome.Succeeded? && !b.shouldClose then 1 else 0)
      && (CloseMainWindow in effects <==> outcome.Succeeded? && b.shouldClose)
      && (SuccessToast(b.message) in effects <==> outcome.Succeeded? && !b.shouldClose)
      && (PopToRoot in effects <==> outcome.Succeeded? && b.shouldClose)
      && (forall e :: e in effects && e.RunScript? ==> e == RunScript(CommandScript(b.command, item)))
      && (outcome.Succeeded? ==> forall e :: e in effects ==> !e.FailureToast?)
      && (outcome.Failed? ==> effects == [RunScript(CommandScript(b.command, item)), FailureToast("Action failed", outcome.error)])
  {
    var effects := HandleAction(item, b, outcome);
    var run := RunScript(CommandScript(b.command, item));
    var tail := effects[1..];
    assert effects == [run] + tail;
    match outcome
    case Failed(e) =>
      assert tail == [FailureToast("Action failed", e)];
      CountAbsent(tail, run);
      CountAbsent(tail, Revalidate);
    case Succeeded =>
      if b.shouldClose {
        assert tail == [CloseMainWindow, PopToRoot];
        CountAbsent(tail, run);
        CountAbsent(tail, Revalidate);
      } else {
        assert tail == [SuccessToast(b.message), Revalidate];
        CountAbsent(tail, run);
        assert tail[1..] == [Revalidate];
        assert Count([Revalidate], Revalidate) == 1 by {
          assert [Revalidate][1..] == [];
        }
      }
  }

  /**
   * Every window a script of an offered action addresses is the item's own
   * window in AppleScript's 1-based numbering, so it is at least 1; and every
   * script names the application through the escaped name.
   */
  lemma OfferedScriptsWellFormed(item: GridItem, a: ActionKind)
    requires a in OfferedActions(item) && BindingOf(a).Some?
    ensures var s := CommandScript(BindingOf(a).value.command, item);
      && (s.RaiseWindow? || s.PressClose? || s.SetMinimized? ==> s.window == item.windowIndex + 1 >= 1)
      && (s.RaiseWindow? || s.PressClose? || s.SetMinimized? || s.HideProcess? ==> s.process == EscapeAS(item.appName))
      && (s.ActivateReopen? || s.QuitApp? ==> s.app == EscapeAS(item.appName))
  {
  }

  /** The "Exclude App" action: add the id, then a success toast and one refresh. */
  function Exclude(store: Store, item: GridItem): (r: (Store, seq<Effect>))
    ensures item.bundleId in GetExcluded(r.0)
    ensures r.0 == AddExcluded(store, item.bundleId)
    ensures r.1 == [SuccessToast(item.appName + " excluded"), Revalidate]
  {
    (AddExcluded(store, item.bundleId), [SuccessToast(item.appName + " excluded"), Revalidate])
  }

  /**
   * The inputs the open switcher arranges: the enriched application list, and
   * the exclusion list as it was loaded when the command opened.
   */
  datatype View = View(enriched: Option<seq<App>>, excluded: Option<seq<string>>)

  /** The sections the view shows. */
  function Shown(order: Preferences.AppOrder, v: View): Arrange.Buckets
  {
    Arrange.Sections(order, v.enriched, v.excluded)
  }

  /** An item appears in some section. */
  predicate InSections(b: Arrange.Buckets, it: GridItem)
  {
    it in b.active || it in b.minimized || it in b.noWindow
  }

  /** Opening the command: the exclusion list is read from the store. */
  function Launch(store: Store, enriched: Option<seq<App>>): (v: View)
    ensures v.excluded.Some? && v.excluded.value == GetExcluded(store)
    ensures v.enriched == enriched
  {
    View(enriched, Some(GetExcluded(store)))
  }

  /**
   * "Exclude App" in the open view, as written: the id is stored, and the
   * `Revalidate` effect re-runs the running-apps query it belongs to, giving
   * the refreshed `enriched` list; the exclusion list is not read again.
   */
  function ExcludeInView(store: Store, v: View, item: GridItem, enriched: Option<seq<App>>): (r: (Store, View))
    ensures item.bundleId in GetExcluded(r.0)
    ensures r.0 == Exclude(store, item).0
    ensures r.1.enriched == enriched
    ensures r.1.excluded == v.excluded
  {
    (Exclude(store, item).0, v.(enriched := enriched))
  }

  /**
   * As written, an application excluded from the open view stays in it: when
   * the list loaded at opening did not name it, the refreshed sections still
   * show an item of it.
   */
  lemma ExcludeLeavesAppShown(store: Store, v: View, item: GridItem, order: Preferences.AppOrder, apps: seq<App>, a: App)
    requires v.excluded.Some? && item.bundleId !in v.excluded.value
    requires a in apps && a.bundleId == item.bundleId
    ensures exists it :: InSections(Shown(order, ExcludeInView(store, v, item, Some(apps)).1), it) && it.bundleId == item.bundleId
  {
    Arrange.ArrangeShowsKept(order, apps, v.excluded.value, a);
  }

  /**
   * "Exclude App" as evidently intended: the view also re-reads the exclusion
   * list, so it sees what a fresh launch over the updated store would see.
   */
  function ExcludeAndReload(store: Store, v: View, item: GridItem, enriched: Option<seq<App>>): (r: (Store, View))
    ensures r.0 == Exclude(store, item).0
    ensures r.1 == Launch(r.0, enriched)
  {
    var updated := Exclude(store, item).0;
    (updated, Launch(updated, enriched))
  }

  /**
   * Once an item's application is excluded, the next launch of the switcher,
   * which reads the exclusion list again, shows no item of that application.
   */
  lemma ExcludeHidesApp(store: Store, item: GridItem, order: Preferences.AppOrder, apps: seq<App>)
    ensures forall it :: InSections(Shown(order, Launch(Exclude(store, item).0, Some(apps))), it) ==> it.bundleId != item.bundleId
  {
    Arrange.ArrangeHidesExcluded(order, apps, GetExcluded(Exclude(store, item).0));
  }

  /** With the corrected action, the open view stops showing the excluded application at once. */
  lemma ExcludeReloadHidesApp(store: Store, v: View, item: GridItem, order: Preferences.AppOrder, apps: seq<App>)
    ensures forall it :: InSections(Shown(order, ExcludeAndReload(store, v, item, Some(apps)).1), it) ==> it.bundleId != item.bundleId
  {
    ExcludeHidesApp(store, item, order, apps);
  }
}

=== FILE: arrange.dfy ===
/**
 * Arrangement: from the enriched application list and the exclusion list to
 * the three sections the switcher shows (active windows, minimized windows,
 * applications without windows).
 */
module Arrange {
  import opened Wrappers
  import opened Types
  import opened Decimal
  import opened ItemIds
  import opened Preferences
  import opened Ordering

  /** The single item of a windowless application. */
  function NoWindowItem(app: App): (it: GridItem)
    ensures it.id == NoWindowKey(app.bundleId) && it.bundleId == app.bundleId && it.appName == app.name
    ensures !it.hasWindows && !it.minimized && it.windowIndex == -1 && it.windowTitle.None?
    ensures it.frontmost == app.frontmost && it.appPath == app.appPath
  {
    GridItem(
      id := NoWindowKey(app.bundleId),
      appName := app.name,
      bundleId := app.bundleId,
      appPath := app.appPath,
      windowTitle := None,
      windowIndex := -1,
      windowNumber := None,
      minimized := false,
      hasWindows := false,
      frontmost := app.frontmost)
  }

  /** `win.title || app.name`: an empty title falls back to the application's name. */
  function TitleOrName(win: Window, app: App): string
  {
    if win.title == "" then app.name else win.title
  }

  /** The item of one window; only a multi-window application's items carry a title. */
  function WindowItem(app: App, win: Window, multiWindow: bool): (it: GridItem)
    ensures it.id == WindowKey(app.bundleId, win.index) && it.bundleId == app.bundleId && it.appName == app.name
    ensures it.appPath == app.appPath
    ensures it.hasWindows && it.minimized == win.minimized && it.windowIndex == win.index
    ensures it.windowTitle.Some? <==> multiWindow
    ensures multiWindow && win.title != "" ==> it.windowTitle == Some(win.title)
    ensures multiWindow && win.title == "" ==> it.windowTitle == Some(app.name)
    ensures it.frontmost <==> app.frontmost && !win.minimized
  {
    GridItem(
      id := WindowKey(app.bundleId, win.index),
      appName := app.name,
      bundleId := app.bundleId,
      appPath := app.appPath,
      windowTitle := if multiWindow then Some(TitleOrName(win, app)) else None,
      windowIndex := win.index,
      windowNumber := None,
      minimized := win.minimized,
      hasWindows := true,
      frontmost := app.frontmost && !win.minimized)
  }

  /** `wins.map(win => WindowItem(app, win, multiWindow))` */
  function WindowItems(app: App, wins: seq<Window>, multiWindow: bool): (r: seq<GridItem>)
    ensures |r| == |wins|
    ensures forall j :: 0 <= j < |wins| ==> r[j] == WindowItem(app, wins[j], multiWindow)
  {
    if |wins| == 0 then []
    else WindowItems(app, wins[..|wins| - 1], multiWindow) + [WindowItem(app, wins[|wins| - 1], multiWindow)]
  }

  /** The items one application contributes, in window order. */
  function AppItems(app: App): (r: seq<GridItem>)
    ensures |r| == if |app.windows| == 0 then 1 else |app.windows|
    ensures forall it :: it in r ==> it.bundleId == app.bundleId && (it.hasWindows <==> |app.windows| > 0)
  {
    if |app.windows| == 0 then [NoWindowItem(app)]
    else WindowItems(app, app.windows, |app.windows| > 1)
  }

  /** The concatenation of a sequence of sequences. */
  function Concat<T>(parts: seq<seq<T>>): seq<T>
  {
    if |parts| == 0 then [] else Concat(parts[..|parts| - 1]) + parts[|parts| - 1]
  }

  lemma {:induction false} ConcatAppend<T>(p: seq<seq<T>>, q: seq<seq<T>>)
    ensures Concat(p + q) == Concat(p) + Concat(q)
    decreases |q|
  {
    if |q| == 0 {
      assert p + q == p;
    } else {
      assert (p + q)[..|p + q| - 1] == p + q[..|q| - 1];
      ConcatAppend(p, q[..|q| - 1]);
    }
  }

  /** `apps.map(AppItems)` */
  function PerApp(apps: seq<App>): (r: seq<seq<GridItem>>)
    ensures |r| == |apps|
    ensures forall i :: 0 <= i < |apps| ==> r[i] == AppItems(apps[i])
  {
    if |apps| == 0 then [] else PerApp(apps[..|apps| - 1]) + [AppItems(apps[|apps| - 1])]
  }

  /** The items of all applications, application by application. */
  function Flat(apps: seq<App>): seq<GridItem>
  {
    Concat(PerApp(apps))
  }

  lemma PerAppAppend(a: seq<App>, b: seq<App>)
    ensures PerApp(a + b) == PerApp(a) + PerApp(b)
  {
    var whole, parts := PerApp(a + b), PerApp(a) + PerApp(b);
    forall i | 0 <= i < |whole|
      ensures whole[i] == parts[i]
    {
      if i < |a| {
        assert (a + b)[i] == a[i];
      } else {
        assert (a + b)[i] == b[i - |a|];
      }
    }
  }

  lemma FlatConcat(a: seq<App>, b: seq<App>)
    ensures Flat(a + b) == Flat(a) + Flat(b)
  {
    PerAppAppend(a, b);
    ConcatAppend(PerApp(a), PerApp(b));
  }

  lemma FlatSingle(app: App)
    ensures Flat([app]) == AppItems(app)
  {
    assert PerApp([app]) == [AppItems(app)];
    assert Concat([AppItems(app)]) == Concat([AppItems(app)][..0]) + AppItems(app);
  }

  /** Each application contributes one item per window, or one item when it has none. */
  lemma {:induction false} FlatLength(apps: seq<App>)
    ensures |Flat(apps)| == TotalWindows(apps) + WindowlessCount(apps)
  {
    if |apps| > 0 {
      var init := apps[..|apps| - 1];
      var last := apps[|apps| - 1];
      assert apps == init + [last];
      FlatConcat(init, [last]);
      FlatSingle(last);
      FlatLength(init);
    }
  }

  /** Every item carries the bundle id of one of the applications it came from. */
  lemma {:induction false} FlatBundleIds(apps: seq<App>)
    ensures forall it :: it in Flat(apps) ==> exists a :: a in apps && it.bundleId == a.bundleId
  {
    if |apps| > 0 {
      var init := apps[..|apps| - 1];
      var last := apps[|apps| - 1];
      assert apps == init + [last];
      FlatConcat(init, [last]);
      FlatSingle(last);
      FlatBundleIds(init);
      forall it | it in Flat(apps)
        ensures exists a :: a in apps && it.bundleId == a.bundleId
      {
        if it in Flat(init) {
          var a :| a in init && it.bundleId == a.bundleId;
          assert a in apps;
        } else {
          assert it in AppItems(last);
          assert last in apps;
        }
      }
    }
  }

  datatype Bucket = ActiveBucket | MinimizedBucket | NoWindowBucket

  /** The section an item is shown in. */
  function BucketOf(it: GridItem): (b: Bucket)
    ensures b == NoWindowBucket <==> !it.hasWindows
    ensures b == MinimizedBucket <==> it.hasWindows && it.minimized
    ensures b == ActiveBucket <==> it.hasWindows && !it.minimized
  {
    if !it.hasWindows then NoWindowBucket
    else if it.minimized then MinimizedBucket
    else ActiveBucket
  }

  /** The items of `items` that belong to bucket `b`, in their original order. */
  function Select(items: seq<GridItem>, b: Bucket): (r: seq<GridItem>)
    ensures |r| <= |items|
  {
    if |items| == 0 then []
    else
      var rest := Select(items[1..], b);
      if BucketOf(items[0]) == b then [items[0]] + rest else rest
  }

  /** An item is selected exactly when it is in the list and belongs to the bucket. */
  lemma {:induction false} SelectMembers(items: seq<GridItem>, b: Bucket)
    ensures forall it :: it in Select(items, b) <==> it in items && BucketOf(it) == b
  {
    if |items| > 0 {
      SelectMembers(items[1..], b);
      assert forall it :: it in items <==> it == items[0] || it in items[1..];
    }
  }

  /** `apps.filter(app => !excludedSet.has(app.bundleId))` */
  function Keep(apps: seq<App>, excluded: seq<string>): (r: seq<App>)
    ensures |r| <= |apps|
    ensures forall a :: a in r <==> a in apps && a.bundleId !in excluded
  {
    if |apps| == 0 then []
    else
      var rest := Keep(apps[1..], excluded);
      assert forall a :: a in apps <==> a == apps[0] || a in apps[1..];
      if apps[0].bundleId in excluded then rest else [apps[0]] + rest
  }

  /** The filter keeps every occurrence of a non-excluded application and none of an excluded one. */
  lemma {:induction false} KeepCounts(apps: seq<App>, excluded: seq<string>)
    ensures forall a :: multiset(Keep(apps, excluded))[a] == if a.bundleId in excluded then 0 else multiset(apps)[a]
  {
    if |apps| > 0 {
      KeepCounts(apps[1..], excluded);
      assert apps == [apps[0]] + apps[1..];
    }
  }

  /** The filter keeps the applications' order: it distributes over concatenation. */
  lemma {:induction false} KeepAppend(a: seq<App>, b: seq<App>, excluded: seq<string>)
    ensures Keep(a + b, excluded) == Keep(a, excluded) + Keep(b, excluded)
  {
    if |a| > 0 {
      var x, rest := a[0], a[1..];
      assert (a + b)[0] == x;
      assert (a + b)[1..] == rest + b;
      KeepAppend(rest, b, excluded);
      if x.bundleId !in excluded {
        assert [x] + Keep(rest, excluded) + Keep(b, excluded) == [x] + (Keep(rest, excluded) + Keep(b, excluded));
      }
    } else {
      assert a + b == b;
    }
  }

  datatype Buckets = Buckets(active: seq<GridItem>, minimized: seq<GridItem>, noWindow: seq<GridItem>)

  /**
   * The three sections: nothing until both the applications and the exclusion
   * list are known; otherwise the non-excluded applications in the chosen
   * order, each contributing its items to the section that fits them.
   */
  function Sections(order: AppOrder, enriched: Option<seq<App>>, excluded: Option<seq<string>>): (b: Buckets)
    ensures enriched.None? || excluded.None? ==> b == Buckets([], [], [])
  {
    if enriched.None? || excluded.None? then Buckets([], [], [])
    else
      var items := Flat(SortApps(order, Keep(enriched.value, excluded.value)));
      Buckets(Select(items, ActiveBucket), Select(items, MinimizedBucket), Select(items, NoWindowBucket))
  }

  /** What one application contributes, item by item. */
  lemma AppItemsFields(app: App)
    ensures |app.windows| == 0 ==> AppItems(app) == [NoWindowItem(app)]
    ensures |app.windows| == 0 ==>
      var it := NoWindowItem(app);
      && IdText(it.id) == app.bundleId + "-no-window"
      && it.windowIndex == -1 && !it.minimized && !it.hasWindows
      && it.frontmost == app.frontmost
      && BucketOf(it) == NoWindowBucket
    ensures |app.windows| > 0 ==> |AppItems(app)| == |app.windows|
    ensures forall j :: 0 <= j < |app.windows| ==>
      var it := AppItems(app)[j];
      var win := app.windows[j];
      && IdText(it.id) == app.bundleId + "-w" + IntToString(win.index)
      && it.bundleId == app.bundleId && it.appName == app.name && it.appPath == app.appPath
      && it.windowIndex == win.index
      && (|app.windows| == 1 ==> it.windowTitle == None)
      && (|app.windows| > 1 ==> it.windowTitle == Some(if win.title == "" then app.name else win.title))
      && it.minimized == win.minimized
      && it.hasWindows
      && it.frontmost == (app.frontmost && !win.minimized)
      && BucketOf(it) == (if win.minimized then MinimizedBucket else ActiveBucket)
  {
  }

  /** Reordering the applications only reorders their items. */
  lemma {:induction false} FlatPermutation(s: seq<App>, t: seq<App>)
    requires multiset(s) == multiset(t)
    ensures multiset(Flat(s)) == multiset(Flat(t))
    decreases |s|
  {
    if |s| > 0 {
      var x := s[|s| - 1];
      var s' := s[..|s| - 1];
      assert s == s' + [x];
      assert x in multiset(t);
      var k :| 0 <= k < |t| && t[k] == x;
      var t' := t[..k] + t[k + 1..];
      RemoveAt(t, k);
      assert multiset(s') == multiset(s) - multiset{x};
      FlatPermutation(s', t');
      FlatConcat(s', [x]);
      FlatSingle(x);
      FlatRemoveAt(t, k);
    }
  }

  /** Taking out the element at `k` takes exactly that element out of the multiset. */
  lemma RemoveAt<T>(t: seq<T>, k: nat)
    requires k < |t|
    ensures multiset(t[..k] + t[k + 1..]) == multiset(t) - multiset{t[k]}
  {
    assert t == t[..k] + [t[k]] + t[k + 1..];
  }

  /** The items of a list of applications are those of the list without one of them plus its own. */
  lemma FlatRemoveAt(t: seq<App>, k: nat)
    requires k < |t|
    ensures multiset(Flat(t)) == multiset(Flat(t[..k] + t[k + 1..])) + multiset(AppItems(t[k]))
  {
    assert t == t[..k] + [t[k]] + t[k + 1..];
    FlatConcat(t[..k], [t[k]]);
    FlatConcat(t[..k] + [t[k]], t[k + 1..]);
    FlatConcat(t[..k], t[k + 1..]);
    FlatSingle(t[k]);
  }

  lemma {:induction false} SelectAppend(a: seq<GridItem>, b: seq<GridItem>, k: Bucket)
    ensures Select(a + b, k) == Select(a, k) + Select(b, k)
  {
    if |a| > 0 {
      assert (a + b)[1..] == a[1..] + b;
      SelectAppend(a[1..], b, k);
    } else {
      assert a + b == b;
    }
  }

  lemma SelectSingle(it: GridItem, k: Bucket)
    ensures Select([it], k) == if BucketOf(it) == k then [it] else []
  {
    assert [it][1..] == [];
  }

  /** Appending one item extends exactly the selection of its own bucket. */
  lemma SelectStep(done: seq<GridItem>, it: GridItem)
    ensures Select(done + [it], ActiveBucket) == Select(done, ActiveBucket) + (if BucketOf(it) == ActiveBucket then [it] else [])
    ensures Select(done + [it], MinimizedBucket) == Select(done, MinimizedBucket) + (if BucketOf(it) == MinimizedBucket then [it] else [])
    ensures Select(done + [it], NoWindowBucket) == Select(done, NoWindowBucket) + (if BucketOf(it) == NoWindowBucket then [it] else [])
  {
    SelectAppend(done, [it], ActiveBucket);
    SelectAppend(done, [it], MinimizedBucket);
    SelectAppend(done, [it], NoWindowBucket);
    SelectSingle(it, ActiveBucket);
    SelectSingle(it, MinimizedBucket);
    SelectSingle(it, NoWindowBucket);
  }

  /** One step of `Select`, counted: the head item lands in its own bucket only. */
  lemma SelectHeadCount(items: seq<GridItem>, k: Bucket)
    requires |items| > 0
    ensures multiset(Select(items, k))
            == (if BucketOf(items[0]) == k then multiset{items[0]} else multiset{}) + multiset(Select(items[1..], k))
  {
  }

  /** The three buckets split a list of items without losing or duplicating any. */
  lemma {:induction false} SelectPartition(items: seq<GridItem>)
    ensures multiset(Select(items, ActiveBucket)) + multiset(Select(items, MinimizedBucket))
            + multiset(Select(items, NoWindowBucket)) == multiset(items)
  {
    if |items| > 0 {
      var x, rest := items[0], items[1..];
      SelectPartition(rest);
      SelectHeadCount(items, ActiveBucket);
      SelectHeadCount(items, MinimizedBucket);
      SelectHeadCount(items, NoWindowBucket);
      assert multiset(items) == multiset{x} + multiset(rest) by {
        assert items == [x] + rest;
      }
    } else {
      assert Select(items, ActiveBucket) == Select(items, MinimizedBucket) == Select(items, NoWindowBucket) == [];
    }
  }

  /**
   * Partition completeness: the three sections together hold exactly the items
   * of the non-excluded applications (one per window, one per windowless
   * application), each once.
   */
  lemma ArrangePartition(order: AppOrder, apps: seq<App>, excluded: seq<string>)
    ensures var b := Sections(order, Some(apps), Some(excluded));
      multiset(b.active) + multiset(b.minimized) + multiset(b.noWindow) == multiset(Flat(Keep(apps, excluded)))
  {
    var kept := Keep(apps, excluded);
    SelectPartition(Flat(SortApps(order, kept)));
    FlatPermutation(SortApps(order, kept), kept);
  }

  /** The section sizes add up to the windows plus the windowless applications that are kept. */
  lemma ArrangeSizes(order: AppOrder, apps: seq<App>, excluded: seq<string>)
    ensures var b := Sections(order, Some(apps), Some(excluded));
      |b.active| + |b.minimized| + |b.noWindow|
        == TotalWindows(Keep(apps, excluded)) + WindowlessCount(Keep(apps, excluded))
  {
    var kept := Keep(apps, excluded);
    var b := Sections(order, Some(apps), Some(excluded));
    ArrangePartition(order, apps, excluded);
    FlatLength(kept);
    assert |multiset(b.active) + multiset(b.minimized) + multiset(b.noWindow)| == |multiset(Flat(kept))|;
  }

  /** Sorting the kept applications brings back no excluded one. */
  lemma SortedKeepsExcludedOut(order: AppOrder, apps: seq<App>, excluded: seq<string>)
    ensures forall a :: a in SortApps(order, Keep(apps, excluded)) ==> a.bundleId !in excluded
  {
    var sorted := SortApps(order, Keep(apps, excluded));
    forall a | a in sorted
      ensures a.bundleId !in excluded
    {
      assert a in multiset(sorted);
    }
  }

  /** No shown item belongs to an excluded application. */
  lemma ArrangeHidesExcluded(order: AppOrder, apps: seq<App>, excluded: seq<string>)
    ensures var b := Sections(order, Some(apps), Some(excluded));
      forall it :: it in b.active || it in b.minimized || it in b.noWindow ==> it.bundleId !in excluded
  {
    var sorted := SortApps(order, Keep(apps, excluded));
    SortedKeepsExcludedOut(order, apps, excluded);
    FlatBundleIds(sorted);
    SelectMembers(Flat(sorted), ActiveBucket);
    SelectMembers(Flat(sorted), MinimizedBucket);
    SelectMembers(Flat(sorted), NoWindowBucket);
  }

  /** Every application contributes at least one item, and its first item carries its bundle id. */
  lemma FlatShowsApp(apps: seq<App>, a: App)
    requires a in apps
    ensures |AppItems(a)| > 0 && AppItems(a)[0] in Flat(apps) && AppItems(a)[0].bundleId == a.bundleId
  {
    var k :| 0 <= k < |apps| && apps[k] == a;
    assert apps == apps[..k] + [a] + apps[k + 1..];
    FlatConcat(apps[..k] + [a], apps[k + 1..]);
    FlatConcat(apps[..k], [a]);
    FlatSingle(a);
  }

  /**
   * The converse of `ArrangeHidesExcluded`: every application that is not
   * excluded has an item in some section.
   */
  lemma ArrangeShowsKept(order: AppOrder, apps: seq<App>, excluded: seq<string>, a: App)
    requires a in apps && a.bundleId !in excluded
    ensures var b := Sections(order, Some(apps), Some(excluded));
      exists it :: (it in b.active || it in b.minimized || it in b.noWindow) && it.bundleId == a.bundleId
  {
    var sorted := SortApps(order, Keep(apps, excluded));
    assert a in multiset(Keep(apps, excluded));
    assert a in sorted by {
      assert a in multiset(sorted);
    }
    FlatShowsApp(sorted, a);
    var it := AppItems(a)[0];
    SelectMembers(Flat(sorted), BucketOf(it));
  }

  /** Every shown item sits in the section that matches its flags. */
  lemma ArrangeWellPlaced(order: AppOrder, apps: seq<App>, excluded: seq<string>)
    ensures var b := Sections(order, Some(apps), Some(excluded));
      && (forall it :: it in b.active ==> it.hasWindows && !it.minimized)
      && (forall it :: it in b.minimized ==> it.hasWindows && it.minimized)
      && (forall it :: it in b.noWindow ==> !it.hasWindows)
  {
    var items := Flat(SortApps(order, Keep(apps, excluded)));
    SelectMembers(items, ActiveBucket);
    SelectMembers(items, MinimizedBucket);
    SelectMembers(items, NoWindowBucket);
  }

  /**
   * The body of the loop over applications: pushes the items of one
   * application onto the end of the sections they belong to.
   */
  method PushAppItems(app: App, active0: seq<GridItem>, minimized0: seq<GridItem>, noWindow0: seq<GridItem>)
    returns (active: seq<GridItem>, minimized: seq<GridItem>, noWindow: seq<GridItem>)
    ensures active == active0 + Select(AppItems(app), ActiveBucket)
    ensures minimized == minimized0 + Select(AppItems(app), MinimizedBucket)
    ensures noWindow == noWindow0 + Select(AppItems(app), NoWindowBucket)
  {
    if |app.windows| == 0 {
      NoWindowStep(app);
      active, minimized, noWindow := active0, minimized0, noWindow0 + [NoWindowItem(app)];
    } else {
      active, minimized := PushWindowItems(app, active0, minimized0);
      WindowsSkipNoWindow(app);
      noWindow := noWindow0;
    }
  }

  /** The inner loop over an application's windows: minimized ones go to one section, the rest to the other. */
  method PushWindowItems(app: App, active0: seq<GridItem>, minimized0: seq<GridItem>)
    returns (active: seq<GridItem>, minimized: seq<GridItem>)
    requires |app.windows| > 0
    ensures active == active0 + Select(AppItems(app), ActiveBucket)
    ensures minimized == minimized0 + Select(AppItems(app), MinimizedBucket)
  {
    active, minimized := active0, minimized0;
    var multiWindow := |app.windows| > 1;
    ghost var items := AppItems(app);
    var j := 0;
    while j < |app.windows|
      invariant 0 <= j <= |app.windows|
      invariant active == active0 + Select(items[..j], ActiveBucket)
      invariant minimized == minimized0 + Select(items[..j], MinimizedBucket)
    {
      var item := WindowItem(app, app.windows[j], multiWindow);
      WindowStep(app, j);
      if app.windows[j].minimized {
        minimized := minimized + [item];
      } else {
        active := active + [item];
      }
      j := j + 1;
    }
    assert items[..j] == items;
  }

  /** An application with windows puts nothing in the no-window section. */
  lemma WindowsSkipNoWindow(app: App)
    requires |app.windows| > 0
    ensures Select(AppItems(app), NoWindowBucket) == []
  {
    AppItemsFields(app);
    SelectNone(AppItems(app), NoWindowBucket);
  }

  /** A bucket none of the items belongs to selects nothing. */
  lemma {:induction false} SelectNone(items: seq<GridItem>, k: Bucket)
    requires forall i :: 0 <= i < |items| ==> BucketOf(items[i]) != k
    ensures Select(items, k) == []
  {
    if |items| > 0 {
      SelectNone(items[1..], k);
    }
  }

  /** A windowless application contributes its one item to the no-window section. */
  lemma NoWindowStep(app: App)
    requires |app.windows| == 0
    ensures Select(AppItems(app), NoWindowBucket) == [NoWindowItem(app)]
    ensures Select(AppItems(app), ActiveBucket) == []
    ensures Select(AppItems(app), MinimizedBucket) == []
  {
    SelectSingle(NoWindowItem(app), NoWindowBucket);
    SelectSingle(NoWindowItem(app), ActiveBucket);
    SelectSingle(NoWindowItem(app), MinimizedBucket);
  }

  /** One more window moves its item into the section its minimized flag picks. */
  lemma WindowStep(app: App, j: nat)
    requires j < |app.windows|
    ensures app.windows[j].minimized ==>
      && Select(AppItems(app)[..j + 1], MinimizedBucket)
         == Select(AppItems(app)[..j], MinimizedBucket) + [WindowItem(app, app.windows[j], |app.windows| > 1)]
      && Select(AppItems(app)[..j + 1], ActiveBucket) == Select(AppItems(app)[..j], ActiveBucket)
    ensures !app.windows[j].minimized ==>
      && Select(AppItems(app)[..j + 1], ActiveBucket)
         == Select(AppItems(app)[..j], ActiveBucket) + [WindowItem(app, app.windows[j], |app.windows| > 1)]
      && Select(AppItems(app)[..j + 1], MinimizedBucket) == Select(AppItems(app)[..j], MinimizedBucket)
  {
    var items := AppItems(app);
    var item := WindowItem(app, app.windows[j], |app.windows| > 1);
    assert items[j] == item;
    assert items[..j + 1] == items[..j] + [item];
    SelectStep(items[..j], item);
  }

  /** One more application appends its items' selections to each section. */
  lemma OuterStep(apps: seq<App>, i: nat)
    requires i < |apps|
    ensures Select(Flat(apps[..i + 1]), ActiveBucket) == Select(Flat(apps[..i]), ActiveBucket) + Select(AppItems(apps[i]), ActiveBucket)
    ensures Select(Flat(apps[..i + 1]), MinimizedBucket) == Select(Flat(apps[..i]), MinimizedBucket) + Select(AppItems(apps[i]), MinimizedBucket)
    ensures Select(Flat(apps[..i + 1]), NoWindowBucket) == Select(Flat(apps[..i]), NoWindowBucket) + Select(AppItems(apps[i]), NoWindowBucket)
  {
    assert apps[..i + 1] == apps[..i] + [apps[i]];
    FlatConcat(apps[..i], [apps[i]]);
    FlatSingle(apps[i]);
    SelectAppend(Flat(apps[..i]), AppItems(apps[i]), ActiveBucket);
    SelectAppend(Flat(apps[..i]), AppItems(apps[i]), MinimizedBucket);
    SelectAppend(Flat(apps[..i]), AppItems(apps[i]), NoWindowBucket);
  }

  /**
   * The loop that fills the three sections, going through the sorted
   * applications in order.
   */
  method ArrangeItems(order: AppOrder, enriched: Option<seq<App>>, excluded: Option<seq<string>>)
    returns (b: Buckets)
    ensures b == Sections(order, enriched, excluded)
  {
    if enriched.None? || excluded.None? {
      return Buckets([], [], []);
    }
    var apps := SortApps(order, Keep(enriched.value, excluded.value));
    var active: seq<GridItem> := [];
    var minimized: seq<GridItem> := [];
    var noWindow: seq<GridItem> := [];
    var i := 0;
    while i < |apps|
      invariant 0 <= i <= |apps|
      invariant active == Select(Flat(apps[..i]), ActiveBucket)
      invariant minimized == Select(Flat(apps[..i]), MinimizedBucket)
      invariant noWindow == Select(Flat(apps[..i]), NoWindowBucket)
    {
      OuterStep(apps, i);
      active, minimized, noWindow := PushAppItems(apps[i], active, minimized, noWindow);
      i := i + 1;
    }
    assert apps[..i] == apps;
    b := Buckets(active, minimized, noWindow);
  }

  /**
   * The sections follow the chosen order: they are what the loop produces
   * from some arrangement of the kept applications that is sorted by it.
   */
  lemma SectionsFollowOrder(order: AppOrder, apps: seq<App>, excluded: seq<string>)
    ensures exists s :: && multiset(s) == multiset(Keep(apps, excluded))
                        && Sorted(order, s)
                        && Sections(order, Some(apps), Some(excluded))
                           == Buckets(Select(Flat(s), ActiveBucket), Select(Flat(s), MinimizedBucket), Select(Flat(s), NoWindowBucket))
  {
    var s := SortApps(order, Keep(apps, excluded));
    assert Sections(order, Some(apps), Some(excluded))
        == Buckets(Select(Flat(s), ActiveBucket), Select(Flat(s), MinimizedBucket), Select(Flat(s), NoWindowBucket));
  }

  /**
   * Most-recent order puts the frontmost application first even when its name
   * sorts last: [Zed (not frontmost), Ant (frontmost)] becomes [Ant, Zed].
   */
  lemma MostRecentScenario()
    ensures var zed := App("Zed", "a", false, "", []);
            var ant := App("Ant", "b", true, "", []);
            SortApps(MostRecent, [zed, ant]) == [ant, zed]
  {
    var zed := App("Zed", "a", false, "", []);
    var ant := App("Ant", "b", true, "", []);
    assert [zed, ant][1..] == [ant];
    assert SortApps(MostRecent, [ant]) == [ant] by {
      assert [ant][1..] == [];
    }
    assert !Precedes(MostRecent, zed, ant);
  }
}

=== FILE: decimal.dfy ===
/**
 * Decimal rendering of integers, as a template literal `${n}` produces it for
 * an integral JavaScript number: an optional minus sign followed by the
 * digits without leading zeros.
 */
module Decimal {

  predicate IsDigit(c: char) {
    '0' <= c <= '9'
  }

  function DigitChar(d: nat): (c: char)
    requires d < 10
    ensures IsDigit(c) && (c as int) - ('0' as int) == d
  {
    (('0' as int) + d) as char
  }

  function DigitValue(c: char): nat
    requires IsDigit(c)
  {
    (c as int) - ('0' as int)
  }

  predicate AllDigits(s: string) {
    forall i :: 0 <= i < |s| ==> IsDigit(s[i])
  }

  /** The decimal digits of `n`, most significant first. */
  function NatToString(n: nat): (s: string)
    ensures |s| >= 1 && AllDigits(s)
    ensures s[0] == '0' ==> n == 0
  {
    if n < 10 then [DigitChar(n)] else NatToString(n / 10) + [DigitChar(n % 10)]
  }

  /** `${n}` for an integral number `n`. */
  function IntToString(n: int): (s: string)
    ensures |s| >= 1 && IsDigit(s[|s| - 1])
    ensures forall i :: 0 <= i < |s| ==> IsDigit(s[i]) || (i == 0 && s[i] == '-')
    ensures n < 0 <==> s[0] == '-'
  {
    if n < 0 then "-" + NatToString(-n) else NatToString(n)
  }

  /** Reads a string of digits back as a number (the inverse of NatToString). */
  function ParseNat(s: string): nat
    requires AllDigits(s)
  {
    if |s| == 0 then 0 else ParseNat(s[..|s| - 1]) * 10 + DigitValue(s[|s| - 1])
  }

  /** Reads an optional minus sign and digits back as an integer. */
  function ParseInt(s: string): int
    requires |s| >= 1
    requires forall i :: 0 <= i < |s| ==> IsDigit(s[i]) || (i == 0 && s[i] == '-')
  {
    if s[0] == '-' then -(ParseNat(s[1..]) as int) else ParseNat(s) as int
  }

  lemma {:induction false} NatRoundTrip(n: nat)
    ensures ParseNat(NatToString(n)) == n
  {
    if n >= 10 {
      var s := NatToString(n);
      assert s[..|s| - 1] == NatToString(n / 10);
      NatRoundTrip(n / 10);
    }
  }

  /** Decimal rendering loses nothing: parsing it gives the number back. */
  lemma IntRoundTrip(n: int)
    ensures ParseInt(IntToString(n)) == n
  {
    if n < 0 {
      assert IntToString(n)[1..] == NatToString(-n);
      NatRoundTrip(-n);
    } else {
      NatRoundTrip(n);
    }
  }

  /** Distinct numbers render as distinct strings. */
  lemma IntToStringInjective(a: int, b: int)
    ensures IntToString(a) == IntToString(b) ==> a == b
  {
    IntRoundTrip(a);
    IntRoundTrip(b);
  }
}

=== FILE: escape.dfy ===
/**
 * `escapeAS`: making a string safe to place between double quotes in an
 * AppleScript string literal. Backslashes are doubled first, then each double
 * quote gets a backslash in front of it.
 */
module Escape {
  import opened Wrappers
  import opened Seqs

  const Backslash: char := '\\'
  const Quote: char := '"'

  /** `s.replace(/c/g, rep)` */
  function ReplaceAll(s: string, c: char, rep: string): (r: string)
    ensures c !in s ==> r == s
    ensures |s| == 1 ==> r == if s[0] == c then rep else s
  {
    if |s| == 0 then []
    else (if s[0] == c then rep else [s[0]]) + ReplaceAll(s[1..], c, rep)
  }

  /**
   * `escapeAS`: the two global replacements, backslashes first. Together they
   * escape every character exactly once.
   */
  function EscapeAS(s: string): (r: string)
    ensures r == EscapeEach(s)
  {
    EscapeIsSinglePass(s);
    ReplaceAll(ReplaceAll(s, Backslash, [Backslash, Backslash]), Quote, [Backslash, Quote])
  }

  /** The escape of one character on its own. */
  function EscapeChar(c: char): string
  {
    if c == Backslash then [Backslash, Backslash]
    else if c == Quote then [Backslash, Quote]
    else [c]
  }

  /** Escaping character by character, in a single pass. */
  function EscapeEach(s: string): string
  {
    if |s| == 0 then [] else EscapeChar(s[0]) + EscapeEach(s[1..])
  }

  /** Reads an escaped text back: a backslash stands for the character after it. */
  function Unescape(t: string): string
  {
    if |t| == 0 then []
    else if t[0] == Backslash && |t| >= 2 then [t[1]] + Unescape(t[2..])
    else [t[0]] + Unescape(t[1..])
  }

  /**
   * Reads the body of an AppleScript string literal whose opening quote has
   * been consumed: returns the characters it stands for and the text after the
   * closing quote, or None when the literal is never closed.
   */
  function ReadLiteral(t: string): Option<(string, string)>
  {
    if |t| == 0 then None
    else if t[0] == Quote then Some(([], t[1..]))
    else if t[0] == Backslash && |t| >= 2 then
      match ReadLiteral(t[2..])
      case None => None
      case Some((body, rest)) => Some(([t[1]] + body, rest))
    else
      match ReadLiteral(t[1..])
      case None => None
      case Some((body, rest)) => Some(([t[0]] + body, rest))
  }

  lemma {:induction false} ReplaceAllAppend(a: string, b: string, c: char, rep: string)
    ensures ReplaceAll(a + b, c, rep) == ReplaceAll(a, c, rep) + ReplaceAll(b, c, rep)
  {
    if |a| > 0 {
      assert (a + b)[1..] == a[1..] + b;
      ReplaceAllAppend(a[1..], b, c, rep);
    } else {
      assert a + b == b;
    }
  }

  /**
   * Replacing backslashes before quotes means the backslashes the second pass
   * inserts are never doubled: the two passes escape each character once.
   */
  lemma {:induction false} EscapeIsSinglePass(s: string)
    ensures ReplaceAll(ReplaceAll(s, Backslash, [Backslash, Backslash]), Quote, [Backslash, Quote]) == EscapeEach(s)
  {
    if |s| > 0 {
      var first := if s[0] == Backslash then [Backslash, Backslash] else [s[0]];
      var rest := ReplaceAll(s[1..], Backslash, [Backslash, Backslash]);
      ReplaceAllAppend(first, rest, Quote, [Backslash, Quote]);
      EscapeIsSinglePass(s[1..]);
      assert ReplaceAll(first, Quote, [Backslash, Quote]) == EscapeChar(s[0]) by {
        if s[0] == Backslash {
          assert first[1..][1..] == [];
        } else {
          assert first[1..] == [];
        }
      }
    }
  }

  /** Unescaping undoes the escape. */
  lemma {:induction false} UnescapeEscape(s: string)
    ensures Unescape(EscapeAS(s)) == s
  {
    UnescapeEach(s);
  }

  lemma {:induction false} UnescapeEach(s: string)
    ensures Unescape(EscapeEach(s)) == s
  {
    if |s| > 0 {
      UnescapeEach(s[1..]);
      var t := EscapeEach(s);
      if s[0] == Backslash || s[0] == Quote {
        assert t[2..] == EscapeEach(s[1..]);
      } else {
        assert t[1..] == EscapeEach(s[1..]);
      }
      assert s == [s[0]] + s[1..];
    }
  }

  /**
   * No injection: placed between double quotes, the escaped name is read back
   * as exactly the name, and the literal ends at the closing quote the script
   * puts after it, whatever the name contains.
   */
  lemma {:induction false} LiteralReadsBack(s: string, rest: string)
    ensures ReadLiteral(EscapeAS(s) + [Quote] + rest) == Some((s, rest))
  {
    ReadEach(s, rest);
  }

  lemma {:induction false} ReadEach(s: string, rest: string)
    ensures ReadLiteral(EscapeEach(s) + [Quote] + rest) == Some((s, rest))
  {
    if |s| == 0 {
      assert EscapeEach(s) + [Quote] + rest == [Quote] + rest;
    } else {
      var tail := EscapeEach(s[1..]) + [Quote] + rest;
      ReadEach(s[1..], rest);
      ReadStep(s[0], tail, s[1..], rest);
      assert EscapeEach(s) + [Quote] + rest == EscapeChar(s[0]) + tail;
      assert s == [s[0]] + s[1..];
    }
  }

  /** Reading one escaped character in front of a literal's body adds that character to the body. */
  lemma ReadStep(c: char, t: string, body: string, rest: string)
    requires ReadLiteral(t) == Some((body, rest))
    ensures ReadLiteral(EscapeChar(c) + t) == Some(([c] + body, rest))
  {
    var u := EscapeChar(c) + t;
    if c == Backslash || c == Quote {
      assert u[2..] == t;
    } else {
      assert u[1..] == t;
    }
  }

  /** Each backslash and each double quote adds exactly one character. */
  lemma {:induction false} EscapeLength(s: string)
    ensures |EscapeAS(s)| == |s| + Count(s, Backslash) + Count(s, Quote)
  {
    EachLength(s);
  }

  lemma {:induction false} EachLength(s: string)
    ensures |EscapeEach(s)| == |s| + Count(s, Backslash) + Count(s, Quote)
  {
    if |s| > 0 {
      EachLength(s[1..]);
    }
  }

  /** A string with neither character is left as it is. */
  lemma EscapeIdentity(s: string)
    requires Backslash !in s && Quote !in s
    ensures EscapeAS(s) == s
  {
  }

  /** The number of backslashes immediately before position `i` of `t`. */
  function RunBefore(t: string, i: nat): nat
    requires i <= |t|
  {
    if i == 0 || t[i - 1] != Backslash then 0 else 1 + RunBefore(t, i - 1)
  }

  /** Every double quote in `t` is preceded by an odd number of backslashes. */
  predicate QuotesEscaped(t: string)
  {
    forall i :: 0 <= i < |t| && t[i] == Quote ==> RunBefore(t, i) % 2 == 1
  }

  lemma {:induction false} RunBeforePrefix(t: string, u: string, i: nat)
    requires i <= |t|
    ensures RunBefore(t + u, i) == RunBefore(t, i)
  {
    if i > 0 && t[i - 1] == Backslash {
      RunBeforePrefix(t, u, i - 1);
    }
  }

  lemma {:induction false} EscapeEachSnoc(s: string, c: char)
    ensures EscapeEach(s + [c]) == EscapeEach(s) + EscapeChar(c)
  {
    if |s| == 0 {
      assert s + [c] == [c];
      assert [c][1..] == [];
    } else {
      assert (s + [c])[1..] == s[1..] + [c];
      EscapeEachSnoc(s[1..], c);
    }
  }

  /**
   * The escaped text has no double quote preceded by an even number of
   * backslashes (such a quote would end the literal), and it ends after an
   * even run of backslashes, so the quote that follows it is a real one.
   */
  lemma {:induction false} EscapedQuotesOdd(s: string)
    ensures QuotesEscaped(EscapeAS(s))
    ensures RunBefore(EscapeAS(s), |EscapeAS(s)|) % 2 == 0
  {
    EachQuotesOdd(s);
  }

  lemma {:induction false} EachQuotesOdd(s: string)
    ensures QuotesEscaped(EscapeEach(s))
    ensures RunBefore(EscapeEach(s), |EscapeEach(s)|) % 2 == 0
    decreases |s|
  {
    if |s| > 0 {
      var init := s[..|s| - 1];
      var c := s[|s| - 1];
      assert s == init + [c];
      EachQuotesOdd(init);
      EscapeEachSnoc(init, c);
      AppendEscaped(EscapeEach(init), c);
    }
  }

  /** Appending one escaped character to text in the escaped form keeps it in that form. */
  lemma AppendEscaped(t: string, c: char)
    requires QuotesEscaped(t) && RunBefore(t, |t|) % 2 == 0
    ensures QuotesEscaped(t + EscapeChar(c))
    ensures RunBefore(t + EscapeChar(c), |t + EscapeChar(c)|) % 2 == 0
  {
    var e := EscapeChar(c);
    PrefixKeepsQuotes(t, e);
    RunBeforePrefix(t, e, |t|);
    if c == Backslash {
      AppendPair(t, Backslash);
    } else if c == Quote {
      AppendPair(t, Quote);
    } else {
      assert e == [c];
    }
  }

  /** A backslash followed by `d` adds a run of one before `d`; when `d` is a backslash too, an even run after. */
  lemma AppendPair(t: string, d: char)
    requires d == Backslash || d == Quote
    requires RunBefore(t, |t|) % 2 == 0
    requires forall i :: 0 <= i < |t| && (t + [Backslash, d])[i] == Quote ==> RunBefore(t + [Backslash, d], i) % 2 == 1
    ensures QuotesEscaped(t + [Backslash, d])
    ensures d == Backslash ==> RunBefore(t + [Backslash, d], |t| + 2) % 2 == 0
  {
    var u := t + [Backslash, d];
    RunBeforePrefix(t, [Backslash, d], |t|);
    assert u[|t|] == Backslash;
    assert RunBefore(u, |t| + 1) == RunBefore(t, |t|) + 1;
    if d == Backslash {
      assert RunBefore(u, |t| + 2) == RunBefore(t, |t|) + 2;
    }
  }

  /** The quotes of `t` keep their backslash runs whatever is appended. */
  lemma PrefixKeepsQuotes(t: string, e: string)
    requires QuotesEscaped(t)
    ensures forall i :: 0 <= i < |t| && (t + e)[i] == Quote ==> RunBefore(t + e, i) % 2 == 1
  {
    forall i | 0 <= i < |t| && (t + e)[i] == Quote
      ensures RunBefore(t + e, i) % 2 == 1
    {
      assert t[i] == Quote;
      RunBeforePrefix(t, e, i);
    }
  }
}

=== FILE: excluded_apps.dfy ===
/**
 * The exclusion store: a list of bundle ids kept under the "excludedApps"
 * key, read whole and written whole on every change.
 */
module ExcludedApps {
  import opened Wrappers
  import opened Storage

  /** `getExcludedApps`: the stored list, or an empty one when there is none or it does not parse. */
  function GetExcluded(store: Store): (ids: seq<string>)
    ensures store.excluded.None? ==> ids == []
    ensures store.excluded == Some(Blank) || store.excluded == Some(Json(Malformed)) ==> ids == []
    ensures store.excluded.Some? && store.excluded.value.Json? && store.excluded.value.parse.Parsed? ==>
      ids == store.excluded.value.parse.value
  {
    match store.excluded
    case None => []
    case Some(Blank) => []
    case Some(Json(Malformed)) => []
    case Some(Json(Parsed(ids))) => ids
  }

  /** `ids.filter(id => id !== bundleId)` */
  function Without(ids: seq<string>, bundleId: string): (r: seq<string>)
    ensures |r| <= |ids|
    ensures multiset(r) == multiset(ids)[bundleId := 0]
  {
    if |ids| == 0 then []
    else
      assert ids == [ids[0]] + ids[1..];
      if ids[0] == bundleId then Without(ids[1..], bundleId) else [ids[0]] + Without(ids[1..], bundleId)
  }

  /** `addExcludedApp`: appends a new id and writes; an id already present causes no write. */
  function AddExcluded(store: Store, bundleId: string): (r: Store)
    ensures r.cache == store.cache
    ensures bundleId in GetExcluded(store) ==> r == store
    ensures bundleId !in GetExcluded(store) ==>
      r.excluded == Some(Stringify(GetExcluded(store) + [bundleId]))
    ensures GetExcluded(r) == GetExcluded(store) || GetExcluded(r) == GetExcluded(store) + [bundleId]
    ensures bundleId in GetExcluded(r)
  {
    var excluded := GetExcluded(store);
    if bundleId !in excluded then store.(excluded := Some(Stringify(excluded + [bundleId])))
    else store
  }

  /** `removeExcludedApp`: drops every occurrence of the id and always writes. */
  function RemoveExcluded(store: Store, bundleId: string): (r: Store)
    ensures r.cache == store.cache
    ensures r.excluded == Some(Stringify(GetExcluded(r)))
    ensures bundleId !in GetExcluded(r)
    ensures forall id :: id != bundleId ==> (id in GetExcluded(r) <==> id in GetExcluded(store))
    ensures GetExcluded(r) == Without(GetExcluded(store), bundleId)
  {
    var updated := Without(GetExcluded(store), bundleId);
    assert forall id :: id in updated <==> id in multiset(updated);
    store.(excluded := Some(Stringify(updated)))
  }

  /** No bundle id is listed twice. */
  predicate NoDuplicates(ids: seq<string>)
  {
    forall i, j :: 0 <= i < j < |ids| ==> ids[i] != ids[j]
  }

  /** Adding twice is adding once. */
  lemma AddIdempotent(store: Store, bundleId: string)
    ensures AddExcluded(AddExcluded(store, bundleId), bundleId) == AddExcluded(store, bundleId)
  {
  }

  /** Adding keeps a duplicate-free list duplicate-free. */
  lemma AddKeepsNoDuplicates(store: Store, bundleId: string)
    requires NoDuplicates(GetExcluded(store))
    ensures NoDuplicates(GetExcluded(AddExcluded(store, bundleId)))
  {
  }

  /** Removal filters in order: it distributes over concatenation. */
  lemma {:induction false} WithoutAppend(a: seq<string>, b: seq<string>, bundleId: string)
    ensures Without(a + b, bundleId) == Without(a, bundleId) + Without(b, bundleId)
  {
    if |a| > 0 {
      assert (a + b)[1..] == a[1..] + b;
      WithoutAppend(a[1..], b, bundleId);
    } else {
      assert a + b == b;
    }
  }

  /** Removing an id that is not listed keeps the list's value (though it is rewritten). */
  lemma {:induction false} WithoutAbsent(ids: seq<string>, bundleId: string)
    requires bundleId !in ids
    ensures Without(ids, bundleId) == ids
  {
    if |ids| > 0 {
      WithoutAbsent(ids[1..], bundleId);
      assert ids == [ids[0]] + ids[1..];
    }
  }

  lemma RemoveAbsent(store: Store, bundleId: string)
    requires bundleId !in GetExcluded(store)
    ensures GetExcluded(RemoveExcluded(store, bundleId)) == GetExcluded(store)
  {
    WithoutAbsent(GetExcluded(store), bundleId);
  }

  /** Removing an id just added restores the list it was added to. */
  lemma AddThenRemove(store: Store, bundleId: string)
    requires bundleId !in GetExcluded(store)
    ensures GetExcluded(RemoveExcluded(AddExcluded(store, bundleId), bundleId)) == GetExcluded(store)
  {
    var ids := GetExcluded(store);
    WithoutAppend(ids, [bundleId], bundleId);
    WithoutAbsent(ids, bundleId);
    assert Without([bundleId], bundleId) == [] by {
      assert [bundleId][1..] == [];
    }
  }
}

=== FILE: item_ids.dfy ===
/**
 * The string keys of display items: `${bundleId}-w${index}` for a window and
 * `${bundleId}-no-window` for a windowless application.
 */
module ItemIds {
  import opened Types
  import opened Decimal

  function IdText(k: ItemId): string
  {
    match k
    case WindowKey(b, n) => b + "-w" + IntToString(n)
    case NoWindowKey(b) => b + "-no-window"
  }

  /** A windowless key ends in 'w'; a window key ends in a digit. */
  lemma LastChar(k: ItemId)
    ensures |IdText(k)| > 0
    ensures IdText(k)[|IdText(k)| - 1] == 'w' <==> k.NoWindowKey?
  {
    if k.WindowKey? {
      var s := IntToString(k.index);
      assert IdText(k)[|IdText(k)| - 1] == s[|s| - 1];
    }
  }

  /** Past the infix "-w", a rendered window key holds only the number, which has no 'w'. */
  lemma NoWAfterInfix(b: string, n: int)
    ensures forall p :: |b| + 2 <= p < |b + "-w" + IntToString(n)| ==> (b + "-w" + IntToString(n))[p] != 'w'
  {
    var s := IntToString(n);
    forall p | |b| + 2 <= p < |b + "-w" + s|
      ensures (b + "-w" + s)[p] != 'w'
    {
      assert (b + "-w" + s)[p] == s[p - |b| - 2];
    }
  }

  lemma WindowKeyInjective(b1: string, n1: int, b2: string, n2: int)
    requires b1 + "-w" + IntToString(n1) == b2 + "-w" + IntToString(n2)
    ensures b1 == b2 && n1 == n2
  {
    var s1, s2 := IntToString(n1), IntToString(n2);
    var t := b1 + "-w" + s1;
    NoWAfterInfix(b1, n1);
    NoWAfterInfix(b2, n2);
    assert t[|b2| + 1] == 'w' && t[|b1| + 1] == 'w';
    assert |b1| == |b2|;
    assert b1 == t[..|b1|] == b2;
    assert s1 == t[|b1| + 2..] == s2;
    IntToStringInjective(n1, n2);
  }

  /**
   * Distinct keys render as distinct strings, whatever the bundle ids contain,
   * so the list's keys are as distinct as the (bundle id, window index) pairs.
   */
  lemma IdTextInjective(k1: ItemId, k2: ItemId)
    requires IdText(k1) == IdText(k2)
    ensures k1 == k2
  {
    LastChar(k1);
    LastChar(k2);
    var t := IdText(k1);
    if k1.WindowKey? && k2.WindowKey? {
      WindowKeyInjective(k1.bundleId, k1.index, k2.bundleId, k2.index);
    } else if k1.NoWindowKey? && k2.NoWindowKey? {
      assert |k1.bundleId| == |k2.bundleId|;
      assert k1.bundleId == t[..|k1.bundleId|] == k2.bundleId;
    }
  }
}

=== FILE: manage_excluded.dfy ===
/**
 * The "manage excluded apps" view: each excluded bundle id joined with the
 * installed application that has it, the title shown for each row, and when
 * the empty view appears.
 */
module ManageExcluded {
  import opened Wrappers
  import opened Storage
  import opened ExcludedApps
  import AppActions

  /** An installed application as the host lists it. */
  datatype InstalledApp = InstalledApp(name: string, bundleId: Option<string>, path: string)

  /** One row: the excluded id and the installed app it names, if any. */
  datatype Entry = Entry(bundleId: string, app: Option<InstalledApp>)

  /** `apps.filter(a => a.bundleId)`: only apps with a non-empty bundle id can be looked up. */
  predicate HasBundleId(a: InstalledApp)
  {
    a.bundleId.Some? && a.bundleId.value != ""
  }

  /** `new Map(pairs)`: inserted in order, so a later app with the same id replaces an earlier one. */
  function AppMap(apps: seq<InstalledApp>): (m: map<string, InstalledApp>)
    ensures forall id :: id in m ==> id != "" && m[id].bundleId == Some(id)
  {
    if |apps| == 0 then map[]
    else
      var m := AppMap(apps[..|apps| - 1]);
      var a := apps[|apps| - 1];
      if HasBundleId(a) then m[a.bundleId.value := a] else m
  }

  /**
   * The map knows an id exactly when some app with a non-empty bundle id has
   * it, and then holds the last such app.
   */
  lemma {:induction false} AppMapLookup(apps: seq<InstalledApp>, id: string)
    ensures id in AppMap(apps) <==> exists k :: 0 <= k < |apps| && HasBundleId(apps[k]) && apps[k].bundleId.value == id
    ensures id in AppMap(apps) ==>
      exists k :: 0 <= k < |apps| && apps[k].bundleId == Some(id) && AppMap(apps)[id] == apps[k]
        && forall j :: k < j < |apps| ==> apps[j].bundleId != Some(id)
  {
    if |apps| > 0 {
      var init := apps[..|apps| - 1];
      var a := apps[|apps| - 1];
      AppMapLookup(init, id);
      if HasBundleId(a) && a.bundleId.value == id {
        assert apps[|apps| - 1].bundleId == Some(id);
      } else {
        assert a.bundleId != Some(id) || !HasBundleId(a);
        if id in AppMap(init) {
          var k :| 0 <= k < |init| && init[k].bundleId == Some(id) && AppMap(init)[id] == init[k]
            && forall j :: k < j < |init| ==> init[j].bundleId != Some(id);
          assert apps[k] == init[k];
          assert forall j :: k < j < |apps| ==> apps[j].bundleId != Some(id) by {
            forall j | k < j < |apps|
              ensures apps[j].bundleId != Some(id)
            {
              if j < |apps| - 1 {
                assert apps[j] == init[j];
              }
            }
          }
        }
        assert (exists k :: 0 <= k < |apps| && HasBundleId(apps[k]) && apps[k].bundleId.value == id)
           ==> (exists k :: 0 <= k < |init| && HasBundleId(init[k]) && init[k].bundleId.value == id) by {
          if exists k :: 0 <= k < |apps| && HasBundleId(apps[k]) && apps[k].bundleId.value == id {
            var k :| 0 <= k < |apps| && HasBundleId(apps[k]) && apps[k].bundleId.value == id;
            assert k < |apps| - 1;
            assert init[k] == apps[k];
          }
        }
        assert (exists k :: 0 <= k < |init| && HasBundleId(init[k]) && init[k].bundleId.value == id)
           ==> (exists k :: 0 <= k < |apps| && HasBundleId(apps[k]) && apps[k].bundleId.value == id) by {
          if exists k :: 0 <= k < |init| && HasBundleId(init[k]) && init[k].bundleId.value == id {
            var k :| 0 <= k < |init| && HasBundleId(init[k]) && init[k].bundleId.value == id;
            assert apps[k] == init[k];
          }
        }
      }
    }
  }

  /** The `excludedApps` memo: one row per excluded id, in list order. */
  function Entries(excluded: Option<seq<string>>, apps: Option<seq<InstalledApp>>): (r: seq<Entry>)
    ensures excluded.None? || apps.None? ==> r == []
    ensures excluded.Some? && apps.Some? ==> |r| == |excluded.value|
    ensures excluded.Some? && apps.Some? ==>
      forall i :: 0 <= i < |r| ==>
        && r[i].bundleId == excluded.value[i]
        && (r[i].app.Some? <==> excluded.value[i] in AppMap(apps.value))
        && (r[i].app.Some? ==> r[i].app.value == AppMap(apps.value)[excluded.value[i]])
  {
    if excluded.None? || apps.None? then []
    else
      var m := AppMap(apps.value);
      seq(|excluded.value|, i requires 0 <= i < |excluded.value| =>
        var id := excluded.value[i];
        Entry(id, if id in m then Some(m[id]) else None))
  }

  /** `app?.name || bundleId` */
  function Title(e: Entry): (t: string)
    ensures e.app.Some? && e.app.value.name != "" ==> t == e.app.value.name
    ensures e.app.None? || e.app.value.name == "" ==> t == e.bundleId
  {
    if e.app.Some? && e.app.value.name != "" then e.app.value.name else e.bundleId
  }

  /** The empty view replaces the list when there are no rows and the list is not loading. */
  function ShowsEmptyView(entries: seq<Entry>, excludeLoading: bool): (r: bool)
    ensures r ==> entries == [] && !excludeLoading
    ensures !r && !excludeLoading ==> |entries| > 0
  {
    |entries| == 0 && !excludeLoading
  }

  /**
   * The empty view shows exactly when the exclusion list has loaded and either
   * the installed apps are still unknown or nothing is excluded.
   */
  lemma EmptyViewWhen(excluded: Option<seq<string>>, apps: Option<seq<InstalledApp>>, excludeLoading: bool)
    ensures ShowsEmptyView(Entries(excluded, apps), excludeLoading)
        <==> !excludeLoading && (excluded.None? || apps.None? || |excluded.value| == 0)
  {
  }

  /** Each row's title is the installed app's name when it has one, else the bundle id. */
  lemma RowTitles(excluded: seq<string>, apps: seq<InstalledApp>, i: nat)
    requires i < |excluded|
    ensures var e := Entries(Some(excluded), Some(apps))[i];
      var m := AppMap(apps);
      Title(e) == if excluded[i] in m && m[excluded[i]].name != "" then m[excluded[i]].name else excluded[i]
  {
  }

  /**
   * "Remove from Excluded": remove the id, then the "App restored" toast and a
   * refresh of this view's exclusion list.
   */
  function Restore(store: Store, bundleId: string): (r: (Store, seq<AppActions.Effect>))
    ensures bundleId !in GetExcluded(r.0)
    ensures GetExcluded(r.0) == Without(GetExcluded(store), bundleId)
    ensures r.1 == [AppActions.SuccessToast("App restored"), AppActions.Revalidate]
  {
    (RemoveExcluded(store, bundleId), [AppActions.SuccessToast("App restored"), AppActions.Revalidate])
  }

  /**
   * The refresh re-reads the exclusion list, so after a restore no row names
   * the restored id, and the other rows stay.
   */
  lemma RestoreRemovesRow(store: Store, bundleId: string, apps: seq<InstalledApp>)
    ensures var rows := Entries(Some(GetExcluded(Restore(store, bundleId).0)), Some(apps));
      forall e :: e in rows ==> e.bundleId != bundleId
    ensures forall id :: id != bundleId && id in GetExcluded(store) ==>
      id in GetExcluded(Restore(store, bundleId).0)
  {
    var rows := Entries(Some(GetExcluded(Restore(store, bundleId).0)), Some(apps));
    forall e | e in rows
      ensures e.bundleId != bundleId
    {
      var i :| 0 <= i < |rows| && rows[i] == e;
    }
  }
}

=== FILE: ordering.dfy ===
/**
 * The two application orders the switcher offers and the sort that applies
 * them. Name comparison (`localeCompare`) is modelled as lexicographic order
 * on character codes; the sort is a stable insertion sort, as the engine's
 * `Array.prototype.sort` is stable.
 */
module Ordering {
  import opened Types
  import opened Preferences

  /** `a.localeCompare(b) <= 0`: `a` is a prefix of `b` or smaller at the first difference. */
  predicate NameLe(a: string, b: string): (r: bool)
    ensures a <= b ==> r
    ensures |a| > 0 && |b| > 0 && a[0] != b[0] ==> (r <==> a[0] < b[0])
    ensures |b| == 0 ==> (r <==> |a| == 0)
    decreases |a|
  {
    |a| == 0 || (|b| > 0 && (a[0] < b[0] || (a[0] == b[0] && NameLe(a[1..], b[1..]))))
  }

  /**
   * After a common prefix of length `k`, the first differing character decides
   * the order.
   */
  lemma {:induction false} NameLeFirstDifference(a: string, b: string, k: nat)
    requires k < |a| && k < |b| && a[..k] == b[..k] && a[k] != b[k]
    ensures NameLe(a, b) <==> a[k] < b[k]
  {
    if k > 0 {
      assert a[0] == a[..k][0] && b[0] == b[..k][0];
      assert a[1..][..k - 1] == a[..k][1..] && b[1..][..k - 1] == b[..k][1..];
      NameLeFirstDifference(a[1..], b[1..], k - 1);
    }
  }

  lemma {:induction false} NameLeTotal(a: string, b: string)
    ensures NameLe(a, b) || NameLe(b, a)
    decreases |a|
  {
    if |a| > 0 && |b| > 0 && a[0] == b[0] {
      NameLeTotal(a[1..], b[1..]);
    }
  }

  lemma {:induction false} NameLeTransitive(a: string, b: string, c: string)
    requires NameLe(a, b) && NameLe(b, c)
    ensures NameLe(a, c)
    decreases |a|
  {
    if |a| > 0 && a[0] == b[0] && b[0] == c[0] {
      NameLeTransitive(a[1..], b[1..], c[1..]);
    }
  }

  lemma {:induction false} NameLeAntisymmetric(a: string, b: string)
    requires NameLe(a, b) && NameLe(b, a)
    ensures a == b
    decreases |a|
  {
    if |a| > 0 {
      NameLeAntisymmetric(a[1..], b[1..]);
      assert a == [a[0]] + a[1..] && b == [b[0]] + b[1..];
    }
  }

  /** The sort comparator, read as "`a` may stand before `b`". */
  predicate Precedes(order: AppOrder, a: App, b: App): (r: bool)
    ensures order.Alphabetical? ==> (r <==> NameLe(a.name, b.name))
    ensures order.MostRecent? && a.frontmost != b.frontmost ==> (r <==> a.frontmost)
    ensures order.MostRecent? && a.frontmost == b.frontmost ==> (r <==> NameLe(a.name, b.name))
  {
    match order
    case Alphabetical => NameLe(a.name, b.name)
    case MostRecent => if a.frontmost != b.frontmost then a.frontmost else NameLe(a.name, b.name)
  }

  lemma PrecedesTotal(order: AppOrder, a: App, b: App)
    ensures Precedes(order, a, b) || Precedes(order, b, a)
  {
    NameLeTotal(a.name, b.name);
  }

  lemma PrecedesTransitive(order: AppOrder, a: App, b: App, c: App)
    requires Precedes(order, a, b) && Precedes(order, b, c)
    ensures Precedes(order, a, c)
  {
    if order.Alphabetical? || (a.frontmost == b.frontmost && b.frontmost == c.frontmost) {
      NameLeTransitive(a.name, b.name, c.name);
    }
  }

  predicate Sorted(order: AppOrder, s: seq<App>)
  {
    forall i, j :: 0 <= i < j < |s| ==> Precedes(order, s[i], s[j])
  }

  /** Places `x` before the first element it may precede. */
  function Insert(order: AppOrder, x: App, s: seq<App>): (r: seq<App>)
    ensures multiset(r) == multiset(s) + multiset{x}
  {
    if |s| == 0 || Precedes(order, x, s[0]) then [x] + s
    else
      assert s == [s[0]] + s[1..];
      [s[0]] + Insert(order, x, s[1..])
  }

  lemma {:induction false} InsertSorted(order: AppOrder, x: App, s: seq<App>)
    requires Sorted(order, s)
    ensures Sorted(order, Insert(order, x, s))
  {
    if |s| == 0 || Precedes(order, x, s[0]) {
      forall j | 0 <= j < |s|
        ensures Precedes(order, x, s[j])
      {
        if j > 0 {
          PrecedesTransitive(order, x, s[0], s[j]);
        }
      }
      ConsSorted(order, x, s);
    } else {
      InsertSorted(order, x, s[1..]);
      HeadPrecedesInserted(order, x, s);
      ConsSorted(order, s[0], Insert(order, x, s[1..]));
    }
  }

  /** A sorted list stays sorted when an element that precedes all of it goes in front. */
  lemma ConsSorted(order: AppOrder, h: App, t: seq<App>)
    requires Sorted(order, t)
    requires forall k :: 0 <= k < |t| ==> Precedes(order, h, t[k])
    ensures Sorted(order, [h] + t)
  {
    var r := [h] + t;
    forall i, j | 0 <= i < j < |r|
      ensures Precedes(order, r[i], r[j])
    {
      if i > 0 {
        assert r[i] == t[i - 1] && r[j] == t[j - 1];
      } else {
        assert r[j] == t[j - 1];
      }
    }
  }

  /** When `x` goes past the head, the head precedes everything after it. */
  lemma HeadPrecedesInserted(order: AppOrder, x: App, s: seq<App>)
    requires Sorted(order, s)
    requires |s| > 0 && !Precedes(order, x, s[0])
    ensures forall k :: 0 <= k < |Insert(order, x, s[1..])| ==> Precedes(order, s[0], Insert(order, x, s[1..])[k])
  {
    var tail := Insert(order, x, s[1..]);
    PrecedesTotal(order, x, s[0]);
    forall k | 0 <= k < |tail|
      ensures Precedes(order, s[0], tail[k])
    {
      assert tail[k] in multiset(tail);
      assert tail[k] in multiset(s[1..]) + multiset{x};
      if tail[k] != x {
        assert tail[k] in s[1..];
        var m :| 0 <= m < |s[1..]| && s[1..][m] == tail[k];
        assert s[m + 1] == tail[k];
      }
    }
  }

  /** The apps in the chosen order: a permutation of the input, sorted by the comparator. */
  function SortApps(order: AppOrder, s: seq<App>): (r: seq<App>)
    ensures multiset(r) == multiset(s)
    ensures Sorted(order, r)
  {
    if |s| == 0 then []
    else
      var rest := SortApps(order, s[1..]);
      InsertSorted(order, s[0], rest);
      assert s == [s[0]] + s[1..];
      Insert(order, s[0], rest)
  }

  /**
   * In most-recent order the frontmost apps form a prefix, and each of the two
   * groups is in name order.
   */
  lemma MostRecentGroups(s: seq<App>, i: nat, j: nat)
    requires Sorted(MostRecent, s)
    requires i < j < |s|
    ensures s[j].frontmost ==> s[i].frontmost
    ensures s[i].frontmost == s[j].frontmost ==> NameLe(s[i].name, s[j].name)
  {
    assert Precedes(MostRecent, s[i], s[j]);
  }

  /** In most-recent order, a frontmost app present anywhere means the first app is frontmost. */
  lemma FrontmostFirst(s: seq<App>, k: nat)
    requires Sorted(MostRecent, s)
    requires k < |s| && s[k].frontmost
    ensures s[0].frontmost
  {
    if k > 0 {
      MostRecentGroups(s, 0, k);
    }
  }
}

=== FILE: preferences.dfy ===
/**
 * Normalisation of the three user preferences the switcher reads (ordering,
 * icon size, view mode) and the grid layout derived from the icon size.
 * A preference arrives as an optional string; anything unexpected falls back
 * to the default.
 */
module Preferences {
  import opened Wrappers

  datatype AppOrder = MostRecent | Alphabetical
  datatype IconSize = Small | Medium | Large
  datatype ViewMode = GridView | ListView
  /** The grid's own item size setting. */
  datatype ItemSize = ItemSmall | ItemMedium | ItemLarge

  /** The preference value that names each choice. */
  function OrderName(o: AppOrder): string {
    match o
    case MostRecent => "most-recent"
    case Alphabetical => "alphabetical"
  }

  function IconSizeName(s: IconSize): string {
    match s
    case Small => "small"
    case Medium => "medium"
    case Large => "large"
  }

  function ViewModeName(v: ViewMode): string {
    match v
    case GridView => "grid"
    case ListView => "list"
  }

  /** Position of an icon size from smallest to largest. */
  function SizeRank(s: IconSize): nat {
    match s
    case Small => 0
    case Medium => 1
    case Large => 2
  }

  function ItemSizeRank(s: ItemSize): nat {
    match s
    case ItemSmall => 0
    case ItemMedium => 1
    case ItemLarge => 2
  }

  function NormalizeOrder(value: Option<string>): (o: AppOrder)
    ensures o == Alphabetical <==> value == Some("alphabetical")
    ensures value.None? ==> o == MostRecent
  {
    if value == Some("alphabetical") then Alphabetical else MostRecent
  }

  function NormalizeIconSize(value: Option<string>): (s: IconSize)
    ensures value.Some? && value.value in {"small", "medium", "large"} ==> IconSizeName(s) == value.value
    ensures !(value.Some? && value.value in {"small", "medium", "large"}) ==> s == Medium
  {
    match value
    case Some("small") => Small
    case Some("large") => Large
    case _ => Medium
  }

  function NormalizeViewMode(value: Option<string>): (v: ViewMode)
    ensures v == ListView <==> value == Some("list")
    ensures value.None? ==> v == GridView
  {
    if value == Some("list") then ListView else GridView
  }

  function ToGridItemSize(s: IconSize): (r: ItemSize)
    ensures ItemSizeRank(r) == SizeRank(s)
  {
    match s
    case Small => ItemSmall
    case Large => ItemLarge
    case Medium => ItemMedium
  }

  function ToGridColumns(s: IconSize): (n: nat)
    ensures n in {5, 7, 12}
    ensures s == Medium <==> n == 7
  {
    match s
    case Small => 12
    case Large => 5
    case Medium => 7
  }

  /** Every value the preference can legitimately hold survives normalisation. */
  lemma NormalizeRoundTrip(o: AppOrder, s: IconSize, v: ViewMode)
    ensures NormalizeOrder(Some(OrderName(o))) == o
    ensures NormalizeIconSize(Some(IconSizeName(s))) == s
    ensures NormalizeViewMode(Some(ViewModeName(v))) == v
  {
  }

  /** Larger icons give a larger grid item size and fewer columns. */
  lemma LayoutMonotone(a: IconSize, b: IconSize)
    requires SizeRank(a) < SizeRank(b)
    ensures ItemSizeRank(ToGridItemSize(a)) < ItemSizeRank(ToGridItemSize(b))
    ensures ToGridColumns(a) > ToGridColumns(b)
  {
  }
}

=== FILE: reconcile.dfy ===
/**
 * Reconciliation: overlaying the slow query's per-application minimized flags
 * onto the fast query's snapshot. The join key is the window's position
 * `index` within its application; the OS window number is not used.
 */
module Reconcile {
  import opened Wrappers
  import opened Types

  /** The slow query's result: for each bundle id, one flag per window position. */
  type MinimizedMap = map<string, seq<bool>>

  /** `statuses[index] ?? false`: a position outside the list reads as not minimized. */
  function StatusAt(statuses: seq<bool>, index: int): bool
  {
    if 0 <= index < |statuses| then statuses[index] else false
  }

  /** `a` and `b` agree on everything except the windows' minimized flags. */
  predicate SameExceptMinimized(a: App, b: App)
  {
    && a.(windows := []) == b.(windows := [])
    && |a.windows| == |b.windows|
    && forall j :: 0 <= j < |a.windows| ==> a.windows[j].(minimized := false) == b.windows[j].(minimized := false)
  }

  function MergeApp(app: App, m: MinimizedMap): (r: App)
    ensures SameExceptMinimized(app, r)
    ensures app.bundleId !in m ==> r == app
    ensures app.bundleId in m ==>
      forall j :: 0 <= j < |r.windows| ==>
        (r.windows[j].minimized <==>
          0 <= app.windows[j].index < |m[app.bundleId]| && m[app.bundleId][app.windows[j].index])
  {
    if app.bundleId !in m then app
    else
      var statuses := m[app.bundleId];
      app.(windows := seq(|app.windows|, j requires 0 <= j < |app.windows| =>
        app.windows[j].(minimized := StatusAt(statuses, app.windows[j].index))))
  }

  /**
   * `runningApps ?? cachedRunningApps`: the fresh snapshot once there is one,
   * otherwise the cached copy, otherwise nothing.
   */
  function Visible(current: Option<seq<App>>, cached: Option<seq<App>>): (r: Option<seq<App>>)
    ensures current.Some? ==> r == current
    ensures current.None? ==> r == cached
    ensures r.Some? <==> current.Some? || cached.Some?
  {
    if current.Some? then current else cached
  }

  /**
   * The enriched application list. Absent apps stay absent; without a
   * minimized map the snapshot is returned as it is.
   */
  function Merge(apps: Option<seq<App>>, m: Option<MinimizedMap>): (r: Option<seq<App>>)
    ensures r.Some? <==> apps.Some?
    ensures m.None? ==> r == apps
    ensures r.Some? ==> |r.value| == |apps.value|
    ensures r.Some? ==> forall i :: 0 <= i < |r.value| ==> SameExceptMinimized(apps.value[i], r.value[i])
    ensures r.Some? ==> forall i :: 0 <= i < |r.value| ==> |r.value[i].windows| == |apps.value[i].windows|
    ensures r.Some? && m.Some? ==>
      forall i :: 0 <= i < |r.value| && apps.value[i].bundleId !in m.value ==> r.value[i] == apps.value[i]
    ensures r.Some? && m.Some? ==>
      forall i, j :: 0 <= i < |r.value| && apps.value[i].bundleId in m.value && 0 <= j < |r.value[i].windows| ==>
        r.value[i].windows[j].minimized == StatusAt(m.value[apps.value[i].bundleId], apps.value[i].windows[j].index)
  {
    if apps.None? then None
    else if m.None? then apps
    else Some(seq(|apps.value|, i requires 0 <= i < |apps.value| => MergeApp(apps.value[i], m.value)))
  }

  /** Re-running the merge with the same map changes nothing further. */
  lemma MergeIdempotent(apps: Option<seq<App>>, m: Option<MinimizedMap>)
    ensures Merge(Merge(apps, m), m) == Merge(apps, m)
  {
    if apps.Some? && m.Some? {
      var once := Merge(apps, m).value;
      var twice := Merge(Merge(apps, m), m).value;
      assert |once| == |twice|;
      forall i | 0 <= i < |once|
        ensures twice[i] == once[i]
      {
        var a := apps.value[i];
        if a.bundleId in m.value {
          assert once[i].windows == seq(|a.windows|, j requires 0 <= j < |a.windows| =>
            a.windows[j].(minimized := StatusAt(m.value[a.bundleId], a.windows[j].index)));
          assert twice[i].windows == once[i].windows;
        }
      }
      assert twice == once;
    }
  }

  /**
   * Windows laid out as the fast query reports them (each `index` equal to its
   * position): after the merge, window `j` of a mapped app is minimized exactly
   * when the map's list has a true flag at position `j`.
   */
  lemma MergePositional(apps: seq<App>, m: MinimizedMap, i: nat, j: nat)
    requires i < |apps| && j < |apps[i].windows|
    requires apps[i].windows[j].index == j
    requires apps[i].bundleId in m
    ensures Merge(Some(apps), Some(m)).value[i].windows[j].minimized ==
            (j < |m[apps[i].bundleId]| && m[apps[i].bundleId][j])
  {
  }
}

=== FILE: running_apps.dfy ===
/**
 * Acquisition of the running-application snapshot: the shape of the fast
 * query's result, the parse-or-empty fallbacks of both queries, and the
 * two-level cache (an in-memory copy in front of the stored payload).
 */
module RunningApps {
  import opened Wrappers
  import opened Types
  import opened Storage
  import opened Reconcile

  // ---------------------------------------------------------------------------
  // The fast query

  /** What the automation bridge reports about one window of a process. */
  datatype WindowInfo = WindowInfo(name: Option<string>, number: Option<int>)

  /** What the automation bridge reports about one foreground process. */
  datatype ProcessInfo = ProcessInfo(
    name: string,
    bundleId: Option<string>,   // None when the process has no bundle identifier
    frontmost: bool,
    path: Option<string>,       // None when the bundle's location could not be resolved
    windows: seq<WindowInfo>
  )

  /** `if (!bundleIds[i]) continue;`: a process without a non-empty bundle id is skipped. */
  predicate Addressable(p: ProcessInfo)
  {
    p.bundleId.Some? && p.bundleId.value != ""
  }

  /** The windows list the query builds: position as index, not yet known to be minimized. */
  function QueryWindows(ws: seq<WindowInfo>): (r: seq<Window>)
    ensures |r| == |ws|
    ensures forall j :: 0 <= j < |r| ==> r[j].index == j && !r[j].minimized
    ensures forall j :: 0 <= j < |r| ==> r[j].title == ws[j].name.GetOr("") && r[j].windowNumber == ws[j].number
  {
    if |ws| == 0 then []
    else
      var init := QueryWindows(ws[..|ws| - 1]);
      var last := ws[|ws| - 1];
      init + [Window(last.name.GetOr(""), false, |ws| - 1, last.number)]
  }

  /** One result entry: the process's facts, with its windows numbered by position. */
  function QueryApp(p: ProcessInfo): (a: App)
    requires Addressable(p)
    ensures a.bundleId == p.bundleId.value && a.bundleId != ""
    ensures a.name == p.name && a.frontmost == p.frontmost
    ensures p.path.Some? ==> a.appPath == p.path.value
    ensures p.path.None? ==> a.appPath == ""
    ensures |a.windows| == |p.windows|
    ensures forall j :: 0 <= j < |a.windows| ==> a.windows[j].index == j && !a.windows[j].minimized
  {
    App(p.name, p.bundleId.value, p.frontmost, p.path.GetOr(""), QueryWindows(p.windows))
  }

  /** The apps a result built like the fast query's has: addressable, positional, none minimized. */
  predicate FastQueryShape(apps: seq<App>)
  {
    forall i :: 0 <= i < |apps| ==>
      && apps[i].bundleId != ""
      && forall j :: 0 <= j < |apps[i].windows| ==>
           apps[i].windows[j].index == j && !apps[i].windows[j].minimized
  }

  /** The result list the fast query assembles from the process list. */
  function FastQuery(procs: seq<ProcessInfo>): (r: seq<App>)
    ensures FastQueryShape(r)
    ensures |r| <= |procs|
  {
    if |procs| == 0 then []
    else
      var rest := FastQuery(procs[1..]);
      if Addressable(procs[0]) then [QueryApp(procs[0])] + rest else rest
  }

  /** The fast query reports every addressable process, and nothing else. */
  lemma {:induction false} FastQueryMembers(procs: seq<ProcessInfo>)
    ensures forall p :: p in procs && Addressable(p) ==> QueryApp(p) in FastQuery(procs)
    ensures forall a :: a in FastQuery(procs) ==> exists p :: p in procs && Addressable(p) && a == QueryApp(p)
  {
    if |procs| > 0 {
      FastQueryMembers(procs[1..]);
      assert forall p :: p in procs <==> p == procs[0] || p in procs[1..];
    }
  }

  /** `getRunningApps`: the parsed query output, or nothing when it does not parse. */
  function RunningAppsFrom(output: Parse<seq<App>>): (apps: seq<App>)
    ensures output.Malformed? ==> apps == []
    ensures output.Parsed? ==> apps == output.value
  {
    match output
    case Malformed => []
    case Parsed(v) => v
  }

  /** `getMinimizedStatus`: the parsed query output, or an empty map when it does not parse. */
  function MinimizedStatusFrom(output: Parse<MinimizedMap>): (m: MinimizedMap)
    ensures output.Malformed? ==> m == map[]
    ensures output.Parsed? ==> m == output.value
  {
    match output
    case Malformed => map[]
    case Parsed(v) => v
  }

  /**
   * Whatever the fast query's text turns out to be, the apps it yields have the
   * query's shape: either none, or exactly the apps the query assembled.
   */
  lemma FastQueryPipeline(procs: seq<ProcessInfo>, parsesBack: bool)
    ensures var apps := RunningAppsFrom(if parsesBack then Parsed(FastQuery(procs)) else Malformed);
      && FastQueryShape(apps)
      && (apps == [] || apps == FastQuery(procs))
  {
  }

  /**
   * After merging the fast query's apps with the slow query's map, window `j`
   * of an app is minimized exactly when the map lists a true flag at position
   * `j` for its bundle id; apps the map does not mention stay all unminimized.
   */
  lemma FastQueryMerge(apps: seq<App>, m: MinimizedMap, i: nat, j: nat)
    requires FastQueryShape(apps)
    requires i < |apps| && j < |apps[i].windows|
    ensures var merged := Merge(Some(apps), Some(m)).value;
      merged[i].windows[j].minimized <==>
        apps[i].bundleId in m && j < |m[apps[i].bundleId]| && m[apps[i].bundleId][j]
  {
    if apps[i].bundleId in m {
      MergePositional(apps, m, i, j);
    }
  }

  // ---------------------------------------------------------------------------
  // The cache

  /** `isRunningAppsCacheEntry`: an object with a numeric `timestamp` and an array `apps`. */
  predicate IsCacheEntry(v: CacheValue): (r: bool)
    ensures r ==> !v.JArray?
    ensures r ==> v.JObject? && "apps" in v.fields && v.fields["apps"].JArray?
    ensures r ==> "timestamp" in v.fields && v.fields["timestamp"].JNumber?
    ensures (&& v.JObject? && "timestamp" in v.fields && "apps" in v.fields
             && v.fields["timestamp"].JNumber? && v.fields["apps"].JArray?) ==> r
  {
    && v.JObject?
    && "timestamp" in v.fields
    && "apps" in v.fields
    && v.fields["timestamp"].JNumber?
    && v.fields["apps"].JArray?
  }

  /** The in-memory copy and the durable store together. */
  datatype CacheState = CacheState(memory: Option<seq<App>>, store: Store)

  /** What a read returns, and the state after it. */
  datatype CacheRead = CacheRead(apps: Option<seq<App>>, state: CacheState)

  /** The apps a parsed payload holds, in either the legacy or the wrapped format. */
  function PayloadApps(v: CacheValue): (r: Option<seq<App>>)
    ensures r.Some? <==> v.JArray? || IsCacheEntry(v)
    ensures v.JArray? ==> r == Some(v.apps)
    ensures !v.JArray? && IsCacheEntry(v) ==> r == Some(v.fields["apps"].apps)
  {
    if v.JArray? then Some(v.apps)
    else if IsCacheEntry(v) then Some(v.fields["apps"].apps)
    else None
  }

  /** `getCachedRunningApps` */
  function GetCached(st: CacheState): (r: CacheRead)
    ensures st.memory.Some? ==> r == CacheRead(st.memory, st)
    ensures r.state.store == st.store
    ensures r.apps.None? ==> r.state == st
    ensures r.apps.Some? ==> r.state.memory == r.apps
    ensures st.memory.None? && (st.store.cache.None? || st.store.cache == Some(Blank)) ==> r == CacheRead(None, st)
    ensures st.memory.None? && st.store.cache == Some(Json(Malformed)) ==> r == CacheRead(None, st)
    ensures st.memory.None? && st.store.cache.Some? && st.store.cache.value.Json? && st.store.cache.value.parse.Parsed? ==>
      r.apps == PayloadApps(st.store.cache.value.parse.value)
  {
    if st.memory.Some? then CacheRead(st.memory, st)
    else
      match st.store.cache
      case None => CacheRead(None, st)
      case Some(Blank) => CacheRead(None, st)
      case Some(Json(Malformed)) => CacheRead(None, st)
      case Some(Json(Parsed(v))) =>
        match PayloadApps(v)
        case None => CacheRead(None, st)
        case Some(apps) => CacheRead(Some(apps), st.(memory := Some(apps)))
  }

  /** The payload `setCachedRunningApps` stores: `{timestamp: now, apps}`. */
  function Entry(apps: seq<App>, now: int): (v: CacheValue)
    ensures IsCacheEntry(v)
    ensures v.fields["apps"] == JArray(apps) && v.fields["timestamp"] == JNumber(now)
  {
    JObject(map["timestamp" := JNumber(now), "apps" := JArray(apps)])
  }

  /** `setCachedRunningApps`, with `Date.now()` passed in as `now`. */
  function SetCached(st: CacheState, apps: seq<App>, now: int): (r: CacheState)
    ensures r.memory == Some(apps)
    ensures r.store.excluded == st.store.excluded
    ensures r.store.cache.Some? && r.store.cache.value.Json? && r.store.cache.value.parse.Parsed?
    ensures PayloadApps(r.store.cache.value.parse.value) == Some(apps)
    ensures IsCacheEntry(r.store.cache.value.parse.value)
    ensures r.store.cache.value.parse.value.fields["apps"] == JArray(apps)
    ensures r.store.cache.value.parse.value.fields["timestamp"] == JNumber(now)
  {
    CacheState(Some(apps), st.store.(cache := Some(Stringify(Entry(apps, now)))))
  }

  /** A stored legacy bare array is returned as it is and becomes the in-memory copy. */
  lemma LegacyArrayRead(store: Store, apps: seq<App>)
    requires store.cache == Some(Json(Parsed(JArray(apps))))
    ensures GetCached(CacheState(None, store)) == CacheRead(Some(apps), CacheState(Some(apps), store))
  {
  }

  /**
   * A stored wrapper yields its apps whatever its timestamp: the timestamp is
   * written but never read, so there is no expiry.
   */
  lemma WrapperReadIgnoresTimestamp(store: Store, apps: seq<App>, t1: int, t2: int)
    requires store.cache == Some(Json(Parsed(Entry(apps, t1))))
    ensures GetCached(CacheState(None, store)).apps == Some(apps)
    ensures GetCached(CacheState(None, store)).apps
         == GetCached(CacheState(None, store.(cache := Some(Json(Parsed(Entry(apps, t2))))))).apps
  {
  }

  /** Any payload that is neither format reads as nothing and leaves the state alone. */
  lemma UnrecognisedPayloadRead(store: Store, v: CacheValue)
    requires store.cache == Some(Json(Parsed(v)))
    requires !v.JArray? && !IsCacheEntry(v)
    ensures GetCached(CacheState(None, store)) == CacheRead(None, CacheState(None, store))
  {
  }

  /**
   * Any object with a numeric timestamp and an array of apps is read as a
   * cache entry, whatever other fields it carries.
   */
  lemma ExtraFieldsRead(store: Store, fields: map<string, CacheValue>, t: int, apps: seq<App>)
    requires store.cache == Some(Json(Parsed(JObject(fields))))
    requires "timestamp" in fields && fields["timestamp"] == JNumber(t)
    requires "apps" in fields && fields["apps"] == JArray(apps)
    ensures GetCached(CacheState(None, store)) == CacheRead(Some(apps), CacheState(Some(apps), store))
  {
  }

  /**
   * An object without a numeric timestamp is not a cache entry, whatever apps
   * it holds: it reads as nothing and leaves the state alone.
   */
  lemma UntimedObjectRead(store: Store, fields: map<string, CacheValue>)
    requires store.cache == Some(Json(Parsed(JObject(fields))))
    requires "timestamp" !in fields || !fields["timestamp"].JNumber?
    ensures GetCached(CacheState(None, store)) == CacheRead(None, CacheState(None, store))
  {
  }

  /**
   * Round trip: after storing `apps`, a read returns `apps`, both through the
   * in-memory copy and, from a fresh process with no in-memory copy, through
   * the stored wrapper.
   */
  lemma CacheRoundTrip(st: CacheState, apps: seq<App>, now: int)
    ensures GetCached(SetCached(st, apps, now)).apps == Some(apps)
    ensures GetCached(CacheState(None, SetCached(st, apps, now).store)).apps == Some(apps)
  {
  }

  /** A second read returns what the first did, from memory, changing nothing. */
  lemma GetCachedStable(st: CacheState)
    ensures var first := GetCached(st);
      first.apps.Some? ==> GetCached(first.state) == first
  {
  }
}

=== FILE: seqs.dfy ===
/** Small facts about sequences that several parts of the model share. */
module Seqs {

  /** The number of occurrences of `x` in `s`. */
  function Count<T(==)>(s: seq<T>, x: T): nat
  {
    if |s| == 0 then 0 else (if s[0] == x then 1 else 0) + Count(s[1..], x)
  }

  /** An element that is not in the sequence occurs zero times. */
  lemma {:induction false} CountAbsent<T>(s: seq<T>, x: T)
    requires x !in s
    ensures Count(s, x) == 0
  {
    if |s| > 0 {
      CountAbsent(s[1..], x);
    }
  }
}

=== FILE: storage.dfy ===
/**
 * The extension's local key-value store, holding two keys: "runningAppsCache"
 * and "excludedApps". Stored text is seen through what JSON.parse makes of
 * it; the parser itself is not modelled.
 */
module Storage {
  import opened Wrappers
  import opened Types

  /** The outcome of JSON.parse on a text. */
  datatype Parse<T> = Malformed | Parsed(value: T)

  /**
   * A stored or returned text. `Blank` is the empty string, which is falsy;
   * any other text is known by what it parses to.
   */
  datatype Text<T> = Blank | Json(parse: Parse<T>)

  /** `JSON.stringify(v)`: a non-empty text that parses back to `v`. */
  function Stringify<T>(v: T): Text<T>
  {
    Json(Parsed(v))
  }

  /**
   * A JSON value read back from the cache key. Arrays are read as lists of
   * applications, as the source casts them without checking their elements;
   * numbers are integral (the only number stored is a millisecond timestamp).
   */
  datatype CacheValue =
    | JNull
    | JBool(b: bool)
    | JNumber(n: int)
    | JString(s: string)
    | JArray(apps: seq<App>)
    | JObject(fields: map<string, CacheValue>)

  /** Both keys of the store; None is a key that was never written. */
  datatype Store = Store(
    cache: Option<Text<CacheValue>>,
    excluded: Option<Text<seq<string>>>
  )
}

=== FILE: types.dfy ===
/**
 * The records the switcher passes around: a running application, one of its
 * windows, and the display item derived from a (app, window) pair or from a
 * windowless application.
 */
module Types {
  import opened Wrappers

  /** One window of a running application, as the fast query reports it. */
  datatype Window = Window(
    title: string,
    minimized: bool,
    index: int,                 // 0-based position in the owning process's window list
    windowNumber: Option<int>   // the OS window handle, when the query could read it
  )

  /** A running, bundle-identified application. */
  datatype App = App(
    name: string,
    bundleId: string,
    frontmost: bool,
    appPath: string,
    windows: seq<Window>
  )

  /**
   * The key of a display item, kept in structured form; ItemIds.IdText renders
   * it as the string the list uses.
   */
  datatype ItemId = WindowKey(bundleId: string, index: int) | NoWindowKey(bundleId: string)

  /** One entry of the switcher's list or grid. */
  datatype GridItem = GridItem(
    id: ItemId,
    appName: string,
    bundleId: string,
    appPath: string,
    windowTitle: Option<string>,
    windowIndex: int,
    windowNumber: Option<int>,
    minimized: bool,
    hasWindows: bool,
    frontmost: bool
  )

  /** Number of windows over a sequence of applications. */
  function TotalWindows(apps: seq<App>): nat
  {
    if |apps| == 0 then 0 else TotalWindows(apps[..|apps| - 1]) + |apps[|apps| - 1].windows|
  }

  /** Number of applications in `apps` that have no window at all. */
  function WindowlessCount(apps: seq<App>): nat
  {
    if |apps| == 0 then 0
    else WindowlessCount(apps[..|apps| - 1]) + (if |apps[|apps| - 1].windows| == 0 then 1 else 0)
  }
}

=== FILE: wrappers.dfy ===
/** Optional values: the model's rendering of JavaScript's `undefined` / `null`. */
module Wrappers {

  datatype Option<+T> = None | Some(value: T) {

    /** Returns the value held in Some, or `default` when None (the `??` operator). */
    function GetOr(default: T): T {
      match this
      case Some(v) => v
      case None => default
    }
  }
}
